=== FILE: README.md ===
# Measurement-plane client: a Dafny model of its message logic

The repository is a client for a measurement plane. Over a message broker it:

- asks a directory for the capabilities on offer;
- turns a chosen capability into a specification and configures it with parameters and a schedule;
- submits the specification and waits for a receipt;
- subscribes to the measurement's results topic and hands each result batch to a callback until an end-of-stream marker arrives;
- can interrupt a running measurement.

The client exists in two near-identical versions, `MP_client.py` and `multiverse.py`. A Dash dashboard (`gui.py`) adds a few pure helpers, and `utils/data_compression.py` adds a structural comparison of decoded results.

This project models that logic with pure functions over immutable values. The model has these parts:

- **Values** (`values.dfy`) holds the JSON/pickle-like data the client handles.
  - `Value` is `None`, a bool, an int, a str, a list, a dict, or a one-dimensional integer ndarray.
  - A dict is an ordered sequence of entries, because insertion order is visible when capabilities are renumbered.
  - The module also defines the Python operations the client relies on: `==` (`PyEq`), `in` (`PyIn`), truth value (`Truthy`) and subscription (`Field`). Each is None where Python raises.
- **Text** (`text.dfy`) holds the `str` operations: `split`, `join`, `replace`, `isdigit`, `int()` and `str()`, with their round trips.
- **Capabilities** (`capabilities.dfy`) post-processes the directory reply in `get_capabilities`. It has both filters and the renumbering loop of `MP_client.py`.
- **Canonical** (`canonical.dfy`) models `combine_to_string`.
- **Lifecycle** (`lifecycle.dfy`) models the `Measurement` object.
  - `Measurement` is a record; each handler is a step function returning the new record and the transport actions as `Event`s: open or stop a receiver, publish, call the result callback.
  - Opaque parts are parameters: the measurement-id hash (`Message.calculate_measurement_id`), `jsonschema.validate`, the random reply topic and the timestamp.
  - The module also covers construction, `configure`, receipt handling, `stop`, `send_measurement` and `interrupt`.
- **MPClient** (`client_mp.dfy`) and **MultiverseClient** (`client_multiverse.dfy`) hold the version-specific parts: result decoding and dispatch with each version's end-of-stream test, and `configure` with each version's schema key.
- **Schedule**, **Parameters** and **Coincidence** model three dashboard helpers: `generate_schedule_string`, `reconstruct_parameters` and `CoincidencePlotter`.
- **Compare** models `compare_data_structures`.

Python exceptions are modelled as follows:

- An exception that `get_capabilities`, `configure` or `update_data` would raise is an explicit outcome: the unfiltered reply, `Raised`, or `None`.
- An exception that escapes the result handler ends the results receiver's event loop. The stream driver `Run` of each client stops at that message, leaves the measurement as it was before it, and reports `died`; no later message is handled.
- An exception that escapes the receipt handler leaves the measurement unchanged and emits nothing, as when no receipt arrives.

## Model

| member | source | states |
|---|---|---|
| Capabilities.FilterByKinds | MP_client.py:28-33 | With a non-empty kind list, exactly the entries whose `capability` is in the list survive, in order. With no list or an empty one, nothing is removed. If any descriptor lacks `capability`, the KeyError happens before any deletion and the reply is kept whole. Dict-ness (distinct keys) is preserved. |
| Capabilities.Rekey | MP_client.py:51-56 | The renumbering loop gives the i-th surviving entry the key i, keeps its value and keeps the entry count. |
| Capabilities.GetCapabilities | MP_client.py:20-57 | With no reply the result is `{}`. Otherwise it is the filtered reply renumbered 0..n-1 in the original order. |
| Capabilities.CountRateScenario | MP_client.py:28-57 | Asking for `measure-count-rate` out of a count-rate and a coincidence capability leaves exactly the first, under key 0. |
| Capabilities.FilterByKind | multiverse.py:27-31 | Keeps exactly the entries whose `capability` compares equal to the requested kind, as an ordered subsequence with a subset of the keys. An unreadable kind aborts the filter. |
| Capabilities.GetCapabilitiesMultiverse | multiverse.py:21-51 | The returned keys are a subset of the reply's ids (there is no renumbering). With no reply the result is `{}`. |
| Capabilities.DefaultKindKeepsOnlyNone | multiverse.py:21-31 | With the default kind `None`, every entry with a non-None kind is removed and every entry whose kind is None is kept. |
| Canonical.Squeeze | MP_client.py:60 | The squeezed text has no space and no newline, and keeps every other character of its input. |
| Canonical.CombineToString | MP_client.py:59-60 | The output contains no space or newline, and every other character of every rendered attribute occurs in it. |
| Canonical.CombineIsSqueezedConcat | MP_client.py:59-60 | Squeezing each `str(att)` and joining equals joining all renderings and then removing every space and newline. |
| Lifecycle.Create | MP_client.py:85-93 | The specification message equals the capability except that `capability` becomes `specification` with the same value. The capability is kept as given. Construction raises exactly when the capability has no `capability` key. |
| Lifecycle.Configure | MP_client.py:95-110 | Configure raises iff the schema entry is missing, and returns True iff the validator accepts. On False nothing changes. On True exactly `parameters`, `schedule` and `timestamp` are set in the specification, the config is the four given entries, and every other field and key is unchanged. |
| Lifecycle.OnReceipt | MP_client.py:112-123 | A non-receipt does nothing. A receipt stops the receipt receiver first. An interrupt receipt, or a receipt arriving when results are already open, does nothing more. Otherwise the handler opens `topic://<id>/results` with the id computed from the receipt. |
| Lifecycle.OnReceiptOpens | MP_client.py:119-123 | A receipt handler emits an open event exactly when it switches the subscription on. |
| Lifecycle.ReceiptsOpenAtMostOnce | MP_client.py:112-123 | Over any sequence of receipts at most one subscription is opened, and none if one was already open. The subscription ends up open iff it was open or one was opened. Nothing else in the measurement changes. |
| Lifecycle.Stop | MP_client.py:173-175 | Stop stops the results receiver exactly when one was opened, and changes nothing else. |
| Lifecycle.Submit | MP_client.py:68-79 | The first action starts the receipt receiver thread for the reply topic, and the second publishes the specification message to `topic:///specifications` with that reply address. The source does not wait for the receiver to subscribe, so this order does not mean the subscription exists before the publish; a receipt lost that way is a missing receipt. The last action stops the receipt receiver. Without a receipt, or with a message that is not a receipt, exactly these three actions happen and nothing changes. A receipt stops the receipt receiver; an interrupt receipt, or one arriving with results already open, does nothing more. Any other receipt opens `topic://<id>/results` for the id computed from it, and leaves the subscription open. Only the subscription flag can change. |
| Lifecycle.SubmitHandlesReceipt | MP_client.py:72-79 | An arriving receipt is handed to the receipt handler: the measurement ends as the handler leaves it, and the handler's actions come between the publish and the final stop. |
| Lifecycle.InterruptMessage | MP_client.py:163-168 | The interrupt message has `interrupt` holding the specification value, and has no `specification` or `capability` key. Every other key (parameters, schedule, timestamp, ...) keeps its value. |
| Lifecycle.ConstructorCopy | MP_client.py:164-165 | Re-constructing from the aliased message moves the `capability` entry back to `specification`. |
| Lifecycle.InterruptAsWritten | MP_client.py:162-171 | As written, the interrupted measurement's own specification gains a `capability` entry equal to its specification value. The published message is the interrupt message. |
| Lifecycle.Interrupt | MP_client.py:162-171 | The corrected interrupt leaves the measurement as it was except for the stop. It publishes the interrupt message on the specifications topic. It ends by stopping the results receiver if one is open, and otherwise the receipt receiver. |
| Lifecycle.InterruptVersionsDifferOnlyByAlias | multiverse.py:129-139 | Both versions publish the same message and emit the same actions. They differ only by the trailing `capability` entry left in the original specification. |
| MPClient.Decode | MP_client.py:126-148 | Bytes and memoryview bodies go to `pickle.loads` only, text bodies to `json.loads` only, and any other body is a caught TypeError, so no message is decoded. |
| MPClient.HandleBody | MP_client.py:126-148 | On the raw message body: a body that is neither bytes nor text leaves the measurement unchanged and emits nothing, and so does a bytes or memoryview body that does not unpickle. A bytes body is never retried with `json.loads`: the outcome does not depend on it. A text body is handled as what `json.loads` yields. |
| MPClient.ViewDecodesAsBytes | MP_client.py:129-130 | A memoryview decodes exactly as the bytes it views. |
| MPClient.Accept | MP_client.py:151-159 | A message is handled iff it is truthy, contains `result`, holds `resultValues`, the `EOF_results` test on the values does not raise, and a result callback is configured. The callback is the configured one, and the end flag is exactly `'EOF_results' in values`. |
| MPClient.OnResult | MP_client.py:150-160 | A rejected message changes nothing. A batch goes to the callback once and is appended once. The end marker goes to the callback once, is not appended, and stops the receiver. Only the results and the stop flag can change. |
| MPClient.RaisesExactly | MP_client.py:150-159 | The handler raises exactly when the decoded message is an array with no single truth value, or is truthy and `'result' in` it raises (a scalar, or a list that meets an array of other than one element before the string `result`), or contains `result` and then lacks `resultValues`, has values on which the `EOF_results` test raises (the same two cases), or has no callable result callback configured. Undecodable, falsy and result-less messages are skipped without an exception. |
| MPClient.Run | MP_client.py:125-160 | Over a stream only the results and the stop flag change. A stopped measurement or an empty stream handles nothing. A stream that died of an exception was not stopped. |
| MPClient.RaiseEndsStream | MP_client.py:150-160 | A message on which the handler raises ends the stream there: the state is the one before it, nothing after it is handled, and the stream is reported dead. |
| MPClient.AmbiguousBatchRaises | MP_client.py:150-154 | A batch holding an array of other than one element makes the `EOF_results` test raise ValueError, which ends the stream with nothing handled. |
| MPClient.RunAccounting | MP_client.py:125-160 | Over a stream, the old results are a prefix of the new ones and no appended batch contains the marker. Deliveries equal the appended batches plus one for the marker. The receiver is stopped once, exactly when the stream ended. |
| MPClient.HandlerHasNoStopGuard | MP_client.py:150-160 | The handler itself has no stop guard: on a stopped measurement it still appends an accepted batch, while `Run` drops the message. |
| MPClient.IgnoredAfterStop | MP_client.py:150-160 | After the end marker, or after a message on which the handler raised, further messages change nothing. |
| MPClient.Configure | MP_client.py:177-183 | This version validates against `parameters_schema`. It raises iff that entry is missing, and a rejection changes nothing. |
| MPClient.BatchThenEof | MP_client.py:151-160 | Batch `[1, 2]` followed by the marker calls the callback twice, keeps one batch and stops the receiver once. |
| MultiverseClient.Accept | multiverse.py:119-124 | A message is handled iff it contains `result` and holds `resultValues`, with no truthiness test, and a callback is configured. |
| MultiverseClient.OnResult | multiverse.py:119-127 | Every accepted message is delivered and appended, end marker included. The receiver stops iff the values equal the string `EOF`. |
| MultiverseClient.RaisesExactly | multiverse.py:119-124 | The handler raises exactly when the body does not decode as JSON (nothing catches it), when `'result' in` the message raises, or when the message contains `result` and then lacks `resultValues` or has no callable result callback configured. Only a message without `result` is skipped. |
| MultiverseClient.Run | multiverse.py:118-127 | Over a stream only the results and the stop flag change. A stopped measurement or an empty stream handles nothing. A stream that died of an exception was not stopped. |
| MultiverseClient.RaiseEndsStream | multiverse.py:119-127 | A message on which the handler raises, an undecodable one included, ends the stream there: the state is the one before it and nothing after it is handled. |
| MultiverseClient.RunCounts | multiverse.py:119-127 | Over a stream, the old results are a prefix of the new ones, and deliveries equal the appended results. The receiver is stopped at most once, exactly when a running stream ends up stopped. Only the results and the stop flag change. |
| MultiverseClient.RunEndsAtMarker | multiverse.py:119-127 | On a stream that was running, `EOF` can only be the last new result, and the stream has stopped iff its last new result is `EOF`. |
| MultiverseClient.HandlerHasNoStopGuard | multiverse.py:119-127 | The handler itself has no stop guard: on a stopped measurement it still appends what it accepts, while `Run` drops the message. |
| MultiverseClient.IgnoredAfterStop | multiverse.py:119-127 | After `EOF`, or after a message on which the handler raised, further messages change nothing. |
| MultiverseClient.Configure | multiverse.py:141-147 | This version validates against `parameters`. It raises iff that entry is missing, and a rejection changes nothing. |
| Schedule.EndSegment | gui.py:317-322 | The end segment is empty exactly when no end date is given. |
| Schedule.TimeOfDayReadBack | gui.py:318-319 | When no dropdown value contains `:`, splitting the time of day at `:` gives each given hour, minute and second, and `00` for each missing one. |
| Schedule.DateTimeReadBack | gui.py:311-320 | When neither the date nor any dropdown value contains a space (or `:`), splitting a start or end date-time at the space gives the date and the time of day, which reads back as above. |
| Schedule.GenerateScheduleString | gui.py:309-326 | The function fails iff the start is neither `now` nor `custom` with a date. |
| Schedule.ParseGenerated | gui.py:309-326 | When no input contains the bar character and there is at least one option, splitting the generated string recovers the start segment (`now`, or `"<date> HH:MM:SS"`), the end segment and the options. |
| Schedule.NoOptionsLikeOneEmpty | gui.py:325-326 | No options and a single empty option produce the same string. |
| Schedule.StreamNow | gui.py:309-326 | Starting now with no end and the option `stream` gives `now`, an empty end segment and `stream`, joined by the bar separators. |
| Parameters.SegmentAsWritten | gui.py:425-427 | The segment rule as written: a key without `_` is plain. When it reads an array element the key has a `_` and the base has none. A segment it cannot unpack splits into more than two pieces at `_`. |
| Parameters.WrittenIndexedAgrees | gui.py:425-427 | Wherever the written rule reads an array element, the corrected rule reads the same base and index. |
| Parameters.SegmentOf | gui.py:425-427 | The corrected segment rule: an indexed segment is its base, `_`, and a digit string. A key without `_` is plain. |
| Parameters.SegmentOfItemId | gui.py:425-427 | Every `<base>_<n>` id reads back as item n of `base`, whatever `base` contains. |
| Parameters.SegmentAsWrittenItemId | gui.py:425-427 | The written rule reads `<base>_<n>` correctly when `base` has no `_`. |
| Parameters.SegmentAsWrittenMisreadsBase | gui.py:425-427 | The written rule takes `time_tagger_0` for a plain key. |
| Parameters.WrittenRuleRaisesOnMiddleDigits | gui.py:425-426 | The written rule cannot unpack a key `<a>_<n>_<b>` with a number in the middle: the segment is malformed, which makes the call raise. |
| Parameters.CorrectedRuleReadsMiddleDigitsPlain | gui.py:425-426 | The corrected rule reads such a key as a plain key when its last piece is not a number. |
| Parameters.Walk | gui.py:419-447 | Walking an id from a dict yields a dict in which the top key is present. All other keys are unchanged and keys stay distinct. A non-dict level, or a segment that cannot be unpacked, makes the call raise. |
| Parameters.WalkThenRead | gui.py:440-447 | For any segment rule, an id whose last segment is plain reads back the value just written. |
| Parameters.ArraySegmentPads | gui.py:430-435 | An array segment leaves the list at least `index + 1` long, keeps the existing elements and pads new slots with `{}`. |
| Parameters.PlainSegmentDescends | gui.py:443-446 | An intermediate plain segment descends into the existing dict and creates `{}` only when the key is absent. |
| Parameters.ApplySnoc | gui.py:417-447 | Ids are processed in order, and the first failure aborts the call. |
| Parameters.LastWriteWins | gui.py:417-447 | After all ids, reading along the last id gives its value, whatever earlier ids wrote. |
| Parameters.Reconstruct | gui.py:415-449 | The loop of `reconstruct_parameters` under any segment rule: with no ids or no values the result is `{}`, and a call that does not raise returns a dict. |
| Parameters.ReconstructParametersAsWritten | gui.py:404-449 | `reconstruct_parameters` as written returns `{}` for no ids or no values, and a dict whenever it does not raise. |
| Parameters.ReconstructParameters | gui.py:404-449 | The same with the corrected segment rule. |
| Parameters.RulesAgreeWithoutUnderscore | gui.py:404-449 | When no id contains `_`, `reconstruct_parameters` as written and corrected give the same result, failure included. |
| Parameters.LastIdWins | gui.py:404-449 | For either segment rule, so for `reconstruct_parameters` as written and corrected: when the last id's final dot-separated segment is plain and the call succeeds, reading along that id's segments gives the last value, whatever earlier ids wrote. |
| Parameters.ReconstructTruncates | gui.py:417 | For either segment rule, `zip` truncates: values past the last id are ignored, and ids past the last value are ignored. |
| Parameters.ItemFieldId | gui.py:404-449 | Under the corrected rule, `<base>_<n>.<field>` builds a list of n+1 items under `base`, the last holding the field and the earlier ones `{}`. |
| Parameters.ItemFieldIdAsWritten | gui.py:404-449 | As written, `<p>_<q>_<n>.<field>` with a non-numeric `q` builds a dict entry under the whole key instead of a list. |
| Coincidence.Reset | gui.py:82-85 | After reset the histogram and the bin edges are both empty. |
| Coincidence.UpdateData | gui.py:99-112 | A missing key raises. An empty accumulator adopts the result's histogram and edges. A non-empty one becomes the element-wise sum, truncated to the shorter length, and keeps its edges. An ambiguous truth value raises. |
| Coincidence.Accumulates | gui.py:99-112 | From a reset plotter, a run of non-empty int-list histograms accumulates to their element-wise sum, truncated to the shortest, with the first result's bin edges. |
| Coincidence.ArrayHistogramIsNotAccumulated | gui.py:106-108 | An ndarray histogram of several counts is adopted, but the next update raises on its truth value. |
| Compare.TypesAndKeysMustMatch | utils/data_compression.py:13-18 | Values of different types, and dicts with different key sets, never compare equal. |
| Compare.DictsCompareByValues | utils/data_compression.py:16-21 | Dicts with the same key set compare equal iff the values under every key compare equal. |
| Compare.CompareImpliesPyEq | utils/data_compression.py:8-29 | Whatever compares equal is equal under Python `==`. |
| Compare.StricterThanPyEq | utils/data_compression.py:13-14 | `1 == True` holds in Python, but the comparison rejects it because the types differ. |
| Compare.ListsUsePyEq | utils/data_compression.py:25-27 | Lists are compared with `==`, so `[1]` and `[True]` compare equal. |
| Compare.CompareReflexive | utils/data_compression.py:8-29 | Every well-formed value of the model compares equal to itself. The model has no floats, so NaN, which compares unequal to itself, is outside this claim. |
| Compare.CompareSymmetric | utils/data_compression.py:8-29 | The comparison is symmetric on well-formed values. |
| Compare.SameEntriesCompareEqual | utils/data_compression.py:16-21 | Two dicts holding the same entries in any order compare equal. |
| Text.JoinOfSplit | gui.py:419 | Joining the pieces of `s.split(c)` with `c` gives `s` back. |
| Text.SplitOfJoin | gui.py:419 | Splitting at a separator undoes joining with it when no piece contains the separator. |
| Text.NatToStringRoundTrip | gui.py:426-428 | Reading `str(n)` back with `isdigit` and `int` gives n. |

## Left out

- The transport is not modelled: `Sender`, `Receiver`, `Broker`, the threads, `Event.wait(timeout=2)`, `join(timeout=2)` and container start/stop. Only the actions a handler takes are kept, as events, and "a receipt arrives in time" is an input.
- The random reply-topic names and the `datetime.now()` timestamp are inputs.
- `Message.calculate_measurement_id` and `Message.calculate_capability_id` are not part of this model; the first is a function parameter. So are `jsonschema.validate`, `pickle.loads` and `json.loads`.
- `str()` rendering of an attribute in `combine_to_string` is a parameter, because Python's repr of nested values is not modelled.
- The capability directory reply is taken as already decoded. A reply that is not a dict is not modelled.
- `Capabilities.FilterByKinds`: the kind list is a list of values compared with `==`. Other iterables passed as `capability_types` are not modelled.
- `Text.IsDigits`: `str.isdigit` is restricted to the ASCII digits. Other Unicode digits are not modelled.
- `Parameters.ReconstructParameters`, `Parameters.ReconstructParametersAsWritten`: the id dicts' `index` lookup is taken as given, so the ids are strings. A missing `index` entry (a KeyError) is not modelled.
- `Coincidence.UpdateData`: histograms are lists of ints and bools, or integer ndarrays. Float values and other element types are not summed.
- `Values.PyEq`: an ndarray nested inside a list or dict equals only an identical ndarray. In Python such a comparison is elementwise and its truth value raises.
- `MPClient.Run`, `MultiverseClient.Run`: the stream driver hands nothing to the handler once the results receiver has been stopped. This assumes `container.stop()` takes effect before the next message is dispatched. In the source, `interrupt` and `stop` call it from another thread (MP_client.py:171-175), and a message already in flight could still reach the handler. The handler itself has no stop guard (see `HandlerHasNoStopGuard`).
- `MPClient.Decode`: `pickle.loads` is a parameter that yields a value or nothing. Only `pickle.UnpicklingError` is caught in the source; other exceptions `pickle.loads` raises on malformed bytes (EOFError, ValueError and others) would escape the handler, but the model treats every unpickling failure as caught.
- Floats are not part of `Value`, although results can carry JSON numbers and pickled float arrays. So NaN is not modelled. In the source `compare_data_structures(nan, nan)` is False, because NaN is unequal to itself and `np.array_equal` is False on NaN arrays. `Compare.CompareReflexive` is therefore a claim about float-free values only.
- The compression helpers (`compress_data`, `decompress_data`, blosc and base64) are thin wrappers over zlib and pickle. They are left out.
- Left out of `gui.py`: `generate_inputs`, which builds UI components; `CountRatePlotter`, which uses the clock, randomness and float rates; the plotly figure builders; and all Dash layout and callbacks.
- `main.py`, `test.py` and `timetags_measurement.py` are demo scripts and are not modelled.
- The written multiverse version also sets `interruption.message`, an attribute nothing reads, so it is not modelled.
- Behaviours of the code worth noting:
  - The measurement id is computed from the receipt message, not from the measurement's own specification.
  - In `MP_client.py` the end-of-stream marker is `'EOF_results' in resultValues`, not the string `EOF`. The marker is delivered but not appended.
  - A missing receipt leaves the measurement unchanged; the code has no separate "failed" state.
  - A result callback that raises is not modelled.
  - In `multiverse.py` a result body that is not JSON raises out of the handler and ends the results receiver. `MP_client.py` catches decoding errors and skips the message.

## Findings

| source | as written | input that shows it | evidently intended | confidence | as-written member | corrected member |
|---|---|---|---|---|---|---|
| MP_client.py:163-164 | `interrupt_msg = self.specification_message` aliases the measurement's own message. Adding `capability` to it changes the measurement's specification, so the interrupted measurement keeps a spurious `capability` entry (the same happens at multiverse.py:130-131). | Any valid measurement whose specification has no `capability` key: afterwards its specification ends with `capability` equal to its `specification` value | The interrupt message is built from a copy, and the measurement's specification is left unchanged | medium, not executed | Lifecycle.InterruptAsWritten | Lifecycle.Interrupt |
| gui.py:425-427 | The array-segment test splits the segment at every `_` and looks only at the second piece, so a base name that itself contains `_` is not recognised. | `time_tagger_0.channel` reconstructs to `{"time_tagger_0": {"channel": v}}` instead of `{"time_tagger": [{"channel": v}]}` | The index is the digit string after the last `_`, so every `<name>_<i>` id built by `generate_inputs` reads back. A second difference follows: a key such as `a_1_b` makes the written rule raise ValueError when it unpacks three pieces, while the corrected rule reads it as a plain key (`Parameters.WrittenRuleRaisesOnMiddleDigits`, `Parameters.CorrectedRuleReadsMiddleDigitsPlain`) | medium, not executed | Parameters.ItemFieldIdAsWritten | Parameters.ItemFieldId |

=== FILE: canonical.dfy ===
/** `combine_to_string`: the canonical text the client builds from a list of
    attributes, with every space and newline squeezed out. Python's `str()`
    rendering of one attribute is the parameter `render`. */
module Canonical {
  import Text
  import opened Values

  /** `s.replace(" ", "").replace("\n", "")`. */
  function Squeeze(s: string): (r: string)
    ensures ' ' !in r && '\n' !in r
    ensures forall x | x != ' ' && x != '\n' :: x in r <==> x in s
  {
    Text.RemoveChar(Text.RemoveChar(s, ' '), '\n')
  }

  /** `''.join(str(att).replace(" ", "").replace("\n", "") for att in attributes)`. */
  function CombineToString(render: Value -> string, atts: seq<Value>): (r: string)
    ensures ' ' !in r && '\n' !in r
    ensures forall i, x | 0 <= i < |atts| && x in render(atts[i]) && x != ' ' && x != '\n' :: x in r
  {
    if |atts| == 0 then ""
    else Squeeze(render(atts[0])) + CombineToString(render, atts[1..])
  }

  function Rendered(render: Value -> string, atts: seq<Value>): seq<string> {
    seq(|atts|, i requires 0 <= i < |atts| => render(atts[i]))
  }

  /** Squeezing each attribute and joining equals joining the renderings and
      squeezing once: the result is the concatenated text minus its spaces
      and newlines, and nothing else. */
  lemma {:induction false} CombineIsSqueezedConcat(render: Value -> string, atts: seq<Value>)
    ensures CombineToString(render, atts) == Squeeze(Text.Concat(Rendered(render, atts)))
    decreases |atts|
  {
    if |atts| > 0 {
      var head := render(atts[0]);
      var tail := Text.Concat(Rendered(render, atts[1..]));
      assert Rendered(render, atts)[1..] == Rendered(render, atts[1..]);
      assert Text.Concat(Rendered(render, atts)) == head + tail;
      CombineIsSqueezedConcat(render, atts[1..]);
      Text.RemoveCharConcat(head, tail, ' ');
      Text.RemoveCharConcat(Text.RemoveChar(head, ' '), Text.RemoveChar(tail, ' '), '\n');
    }
  }
}

=== FILE: capabilities.dfy ===
/** What the client does with the capability directory reply
    (`get_capabilities`), in its two versions: keep the requested kinds of
    capability and, in the MP_client version, number the survivors 0..n-1. */
module Capabilities {
  import opened Wrappers
  import opened Values
  import opened Seqs

  /** Well-known topic the directory request is published on. */
  const DiscoveryTopic := "topic:///get_capabilities"

  /** `descriptor['capability']`, or None where that raises (KeyError on a
      dict without the key, TypeError or IndexError on anything else). */
  function KindOf(descriptor: Value): Option<Value> {
    Field(descriptor, "capability")
  }

  /** No entry makes the kind lookup raise. */
  predicate KindsReadable(caps: seq<Entry>) {
    forall e | e in caps :: KindOf(e.val).Some?
  }

  /** `x in xs` for a Python list: some element compares equal to `x`. */
  predicate MemberOf(x: Value, xs: seq<Value>) {
    exists i | 0 <= i < |xs| :: PyEq(xs[i], x)
  }

  /** `a` is `b` with some entries left out, the rest in their order. */
  predicate Subsequence(a: seq<Entry>, b: seq<Entry>)
    decreases |b|
  {
    if |a| == 0 then true
    else if |b| == 0 then false
    else (a[0] == b[0] && Subsequence(a[1..], b[1..])) || Subsequence(a, b[1..])
  }

  /** The entries of `caps` that satisfy `keep`, in their original order. */
  function Keep(caps: seq<Entry>, keep: Entry -> bool): (r: seq<Entry>)
    ensures forall e :: e in r <==> e in caps && keep(e)
    ensures Subsequence(r, caps)
    ensures (forall e | e in caps :: keep(e)) ==> r == caps
    ensures KeySet(r) <= KeySet(caps)
    ensures Distinct(caps) ==> Distinct(r)
  {
    if |caps| == 0 then []
    else
      var rest := Keep(caps[1..], keep);
      assert caps == [caps[0]] + caps[1..];
      if keep(caps[0]) then
        assert ([caps[0]] + rest)[1..] == rest;
        assert Distinct(caps) ==> forall e | e in rest :: e.key != caps[0].key by {
          if Distinct(caps) {
            forall e | e in rest ensures e.key != caps[0].key {
              var j :| 0 <= j < |caps[1..]| && caps[1..][j] == e;
              assert caps[j + 1] == e;
            }
          }
        }
        [caps[0]] + rest
      else
        rest
  }

  // ---------------------------------------------------------------------
  // MP_client.py

  /** The reply callback's filter: with a non-empty list of kinds, keep the
      entries whose kind is in the list; with no list, or an empty one, keep
      everything. The list comprehension that picks the deletions runs to the
      end before anything is deleted, so a descriptor whose kind cannot be
      read aborts the filter and nothing is removed. */
  function FilterByKinds(caps: seq<Entry>, kinds: Option<seq<Value>>): (r: seq<Entry>)
    ensures kinds.None? || |kinds.value| == 0 || !KindsReadable(caps) ==> r == caps
    ensures kinds.Some? && |kinds.value| > 0 && KindsReadable(caps) ==>
      && Subsequence(r, caps)
      && forall e :: e in r <==> e in caps && MemberOf(KindOf(e.val).value, kinds.value)
    ensures Distinct(caps) ==> Distinct(r)
  {
    if kinds.Some? && |kinds.value| > 0 && KindsReadable(caps) then
      Keep(caps, (e: Entry) => KindOf(e.val).Some? && MemberOf(KindOf(e.val).value, kinds.value))
    else
      caps
  }

  /** The dict after renumbering: position i holds the i-th value under key i. */
  function Renumbered(caps: seq<Entry>): seq<Entry> {
    seq(|caps|, i requires 0 <= i < |caps| => Entry(KInt(i), caps[i].val))
  }

  /** Numbering one more entry appends it under the next integer key. */
  lemma RenumberedSnoc(caps: seq<Entry>, i: nat)
    requires i < |caps|
    ensures Renumbered(caps[..i + 1]) == Renumbered(caps[..i]) + [Entry(KInt(i), caps[i].val)]
  {
    assert caps[..i + 1][..i] == caps[..i];
  }

  /** While entry i waits to be popped, no entry carries the key i yet. */
  lemma NextKeyFresh(caps: seq<Entry>, i: nat)
    requires forall e | e in caps :: e.key.KStr?
    requires i < |caps|
    ensures KInt(i) !in KeySet(caps[i + 1..] + Renumbered(caps[..i]))
  {
    var popped := caps[i + 1..] + Renumbered(caps[..i]);
    forall e | e in popped ensures e.key != KInt(i) {
      if e in caps[i + 1..] {
        assert e in caps;
      } else {
        var j :| 0 <= j < i && Renumbered(caps[..i])[j] == e;
      }
    }
  }

  /** Popping the first entry of a dict and storing its value under a key
      the rest does not hold appends it under that key. */
  lemma PopThenAppend(d: seq<Entry>, e: Entry, rest: seq<Entry>, k: Key)
    requires d == [e] + rest && k !in KeySet(rest)
    ensures Get(d, e.key) == Some(e.val)
    ensures Put(Delete(d, e.key), k, e.val) == rest + [Entry(k, e.val)]
  {
    IndexOfAt(d, e.key, 0);
  }

  /** One turn of the renumbering loop on the dict `d` that holds the
      still-unnumbered entries followed by the numbered ones. */
  lemma RekeyStep(caps: seq<Entry>, i: nat, d: seq<Entry>)
    requires forall e | e in caps :: e.key.KStr?
    requires i < |caps| && d == caps[i..] + Renumbered(caps[..i])
    ensures Get(d, caps[i].key) == Some(caps[i].val)
    ensures Put(Delete(d, caps[i].key), KInt(i), caps[i].val) == caps[i + 1..] + Renumbered(caps[..i + 1])
  {
    var tail, numbered := caps[i + 1..], Renumbered(caps[..i]);
    var added := Entry(KInt(i), caps[i].val);
    assert caps[i..] == [caps[i]] + tail;
    Associative([caps[i]], tail, numbered);
    NextKeyFresh(caps, i);
    PopThenAppend(d, caps[i], tail + numbered, KInt(i));
    RenumberedSnoc(caps, i);
    Associative(tail, numbered, [added]);
  }

  /** The renumbering loop: `capabilities[i] = capabilities.pop(id)` for each
      original key in order. Decoded JSON has only string keys, so a new
      integer key never collides with a key still waiting to be popped. */
  method Rekey(caps: seq<Entry>) returns (r: seq<Entry>)
    requires forall e | e in caps :: e.key.KStr?
    ensures |r| == |caps|
    ensures forall i | 0 <= i < |r| :: r[i] == Entry(KInt(i), caps[i].val)
  {
    var d := caps;
    var keys := Keys(caps);
    var i := 0;
    assert caps[..0] == [];
    while i < |keys|
      invariant 0 <= i <= |keys| == |caps|
      invariant d == caps[i..] + Renumbered(caps[..i])
    {
      var id := keys[i];
      RekeyStep(caps, i, d);
      var v := Get(d, id).value;
      d := Put(Delete(d, id), KInt(i), v);
      i := i + 1;
    }
    assert caps[..i] == caps;
    r := d;
  }

  /** `get_capabilities` once the rendezvous is over. `reply` is the decoded
      reply body, or None when no reply arrived within the wait (or its body
      did not decode), in which case the result is the initial empty dict. */
  method GetCapabilities(reply: Option<seq<Entry>>, kinds: Option<seq<Value>>)
    returns (r: seq<Entry>)
    requires reply.Some? ==> forall e | e in reply.value :: e.key.KStr?
    ensures reply.None? ==> r == []
    ensures reply.Some? ==>
      var kept := FilterByKinds(reply.value, kinds);
      && |r| == |kept|
      && forall i | 0 <= i < |r| :: r[i] == Entry(KInt(i), kept[i].val)
  {
    if reply.None? {
      return [];
    }
    var kept := FilterByKinds(reply.value, kinds);
    assert forall e | e in kept :: e in reply.value;
    r := Rekey(kept);
  }

  /** Asking for count-rate capabilities out of a
      count-rate one and a coincidence one leaves only the first, numbered 0. */
  method CountRateScenario() returns (r: seq<Entry>)
    ensures r == [Entry(KInt(0), Dict([Entry(KStr("capability"), Str("measure-count-rate"))]))]
  {
    var a := Dict([Entry(KStr("capability"), Str("measure-count-rate"))]);
    var b := Dict([Entry(KStr("capability"), Str("measure-coincidences"))]);
    var reply := [Entry(KStr("A"), a), Entry(KStr("B"), b)];
    var kinds := [Str("measure-count-rate")];
    assert KindOf(a) == Some(Str("measure-count-rate"));
    assert KindOf(b) == Some(Str("measure-coincidences"));
    assert PyEq(kinds[0], Str("measure-count-rate"));
    assert MemberOf(Str("measure-count-rate"), kinds);
    assert !MemberOf(Str("measure-coincidences"), kinds);
    assert KindsReadable(reply) by {
      forall e | e in reply ensures KindOf(e.val).Some? {
        assert e == reply[0] || e == reply[1];
      }
    }
    var keep := (e: Entry) => KindOf(e.val).Some? && MemberOf(KindOf(e.val).value, kinds);
    assert keep(reply[0]) && !keep(reply[1]);
    assert reply[1..] == [reply[1]] && [reply[1]][1..] == [];
    assert Keep(reply[1..], keep) == [];
    var kept := FilterByKinds(reply, Some(kinds));
    assert kept == Keep(reply, keep);
    assert kept == [Entry(KStr("A"), a)];
    r := GetCapabilities(Some(reply), Some(kinds));
  }

  // ---------------------------------------------------------------------
  // multiverse.py

  /** The multiverse filter: always applied, keeping the entries whose kind
      compares equal to `kind` (Python `None` is `Null`); a descriptor whose
      kind cannot be read aborts it and nothing is removed. */
  function FilterByKind(caps: seq<Entry>, kind: Value): (r: seq<Entry>)
    ensures !KindsReadable(caps) ==> r == caps
    ensures KindsReadable(caps) ==>
      && Subsequence(r, caps)
      && forall e :: e in r <==> e in caps && PyEq(KindOf(e.val).value, kind)
    ensures KeySet(r) <= KeySet(caps)
    ensures Distinct(caps) ==> Distinct(r)
  {
    if KindsReadable(caps) then
      Keep(caps, (e: Entry) => KindOf(e.val).Some? && PyEq(KindOf(e.val).value, kind))
    else
      caps
  }

  /** `get_capabilities` of the multiverse client once the rendezvous is
      over: no re-numbering, so the result is the filtered reply itself. */
  function GetCapabilitiesMultiverse(reply: Option<seq<Entry>>, kind: Value): (r: seq<Entry>)
    ensures reply.None? ==> r == []
    ensures reply.Some? ==> KeySet(r) <= KeySet(reply.value)
    ensures reply.Some? && KindsReadable(reply.value) ==> Subsequence(r, reply.value)
    ensures reply.Some? && !KindsReadable(reply.value) ==> r == reply.value
    ensures reply.Some? && Distinct(reply.value) ==> Distinct(r)
  {
    if reply.None? then [] else FilterByKind(reply.value, kind)
  }

  /** Leaving the kind at its default `None` removes every entry whose kind is
      not `None`, and keeps those whose kind is. */
  lemma {:induction false} DefaultKindKeepsOnlyNone(caps: seq<Entry>)
    requires KindsReadable(caps)
    ensures forall e | e in FilterByKind(caps, Null) :: KindOf(e.val) == Some(Null)
    ensures forall e | e in caps && KindOf(e.val) == Some(Null) :: e in FilterByKind(caps, Null)
  {
    var r := FilterByKind(caps, Null);
    forall e | e in r ensures KindOf(e.val) == Some(Null) {
      PyEqNull(KindOf(e.val).value);
    }
    forall e | e in caps && KindOf(e.val) == Some(Null) ensures e in r {
      PyEqNull(KindOf(e.val).value);
    }
  }
}

=== FILE: client_mp.dfy ===
/** The version-specific part of the main client (`MP_client.py`): result
    decoding, the result handler with its `EOF_results` sentinel, and
    `configure` against the `parameters_schema` entry. */
module MPClient {
  import opened Wrappers
  import opened Values
  import opened Lifecycle
  import opened Seqs

  /** A results message carrying this string in its values ends the stream. */
  const EofMarker := "EOF_results"

  /** Where this version keeps the parameter schema in a capability. */
  const SchemaKey := "parameters_schema"

  /** The body of a transport message, by its Python type. */
  datatype Body =
    | Bytes(data: seq<bv8>)
    | View(data: seq<bv8>)       // a memoryview
    | Text(text: string)
    | Other(v: Value)            // a body of any other type, such as a dict; never a `str`, which is `Text`

  /** Decoding in `result_receiver_on_message_callback`: a memoryview is
      turned into bytes, bytes are unpickled, everything else goes through
      `json.loads`. `unpickle` and `loads` stand for `pickle.loads` and
      `json.loads` on text and yield None where they raise; `json.loads` on
      a value that is not text raises TypeError. */
  function Decode(body: Body, unpickle: seq<bv8> -> Option<Value>, loads: string -> Option<Value>): (r: Option<Value>)
    ensures body.Bytes? || body.View? ==> r == unpickle(body.data)
    ensures body.Text? ==> r == loads(body.text)
    ensures body.Other? ==> r.None?
  {
    match body
    case Bytes(data) => unpickle(data)
    case View(data) => unpickle(data)
    case Text(text) => loads(text)
    case Other(_) => None
  }

  /** A memoryview decodes exactly as the bytes it views. */
  lemma ViewDecodesAsBytes(data: seq<bv8>, unpickle: seq<bv8> -> Option<Value>, loads: string -> Option<Value>)
    ensures Decode(View(data), unpickle, loads) == Decode(Bytes(data), unpickle, loads)
  {
  }

  /** The result callback on a raw body: a body that is neither bytes nor
      text, and a bytes body that does not unpickle, leave the measurement
      as it was and emit nothing. A bytes body is never retried through
      `json.loads`, whatever `loads` would make of it; a text body is
      handled as what `json.loads` yields. */
  lemma HandleBody(m: Measurement, body: Body, unpickle: seq<bv8> -> Option<Value>,
                   loads: string -> Option<Value>, otherLoads: string -> Option<Value>)
    ensures body.Other? ==> OnResult(m, Decode(body, unpickle, loads)) == Step(m, [])
    ensures (body.Bytes? || body.View?) && unpickle(body.data).None? ==>
      OnResult(m, Decode(body, unpickle, loads)) == Step(m, [])
    ensures body.Bytes? || body.View? ==>
      OnResult(m, Decode(body, unpickle, loads)) == OnResult(m, Decode(body, unpickle, otherLoads))
    ensures body.Text? ==> OnResult(m, Decode(body, unpickle, loads)) == OnResult(m, loads(body.text))
  {
  }

  /** What the handler does with one decoded message when no exception
      escapes: call `callback` with `values`, and stop if `eof`. */
  datatype Delivery = Delivery(callback: Callback, values: Value, eof: bool)

  /** The checks of the result handler, in source order: the message is
      truthy and contains `result`, it is a dict holding `resultValues`, the
      `EOF_results` test on those values does not raise, and a callable
      result callback is configured. Any check failing means a step that
      changes nothing (a skipped branch or an escaping exception). */
  function Accept(m: Measurement, decoded: Option<Value>): (r: Option<Delivery>)
    ensures r.Some? <==>
      && decoded.Some?
      && Truthy(decoded.value) == Some(true)
      && PyIn("result", decoded.value) == Some(true)
      && Field(decoded.value, "resultValues").Some?
      && PyIn(EofMarker, Field(decoded.value, "resultValues").value).Some?
      && m.config.Some? && m.config.value.resultCallback.Callback?
    ensures r.Some? ==>
      && r.value.values == Field(decoded.value, "resultValues").value
      && r.value.callback == m.config.value.resultCallback
      && (r.value.eof <==> PyIn(EofMarker, r.value.values) == Some(true))
  {
    match decoded
    case None => None
    case Some(msg) =>
      if Truthy(msg) != Some(true) || PyIn("result", msg) != Some(true) then None
      else match Field(msg, "resultValues")
        case None => None
        case Some(values) =>
          match PyIn(EofMarker, values)
          case None => None
          case Some(eof) =>
            if m.config.None? || m.config.value.resultCallback.NoCallback? then None
            else Some(Delivery(m.config.value.resultCallback, values, eof))
  }

  /** `result_receiver_on_message_callback` on a decoded body: an accepted
      batch is handed to the callback and appended to the results; the end
      marker is handed to the callback, not appended, and stops the
      results receiver. Nothing but the results and the stop flag change. */
  function OnResult(m: Measurement, decoded: Option<Value>): (r: Step)
    ensures r.m == m.(results := r.m.results, stopped := r.m.stopped)
    ensures Accept(m, decoded).None? ==> r == Step(m, [])
    ensures Accept(m, decoded).Some? && !Accept(m, decoded).value.eof ==>
      var d := Accept(m, decoded).value;
      r == Step(m.(results := m.results + [d.values]), [Deliver(d.callback, d.values)])
    ensures Accept(m, decoded).Some? && Accept(m, decoded).value.eof ==>
      var d := Accept(m, decoded).value;
      && r.m.results == m.results
      && r.events == [Deliver(d.callback, d.values)] + Stop(m).events
      && r.m.stopped == (m.stopped || m.resultsOpen)
  {
    match Accept(m, decoded)
    case None => Step(m, [])
    case Some(d) =>
      if d.eof then
        var stop := Stop(m);
        Step(stop.m, [Deliver(d.callback, d.values)] + stop.events)
      else
        Step(m.(results := m.results + [d.values]), [Deliver(d.callback, d.values)])
  }

  /** The bodies the handler passes over without an exception: a decoding
      failure it catches, a falsy message, and a truthy one without
      `result`. */
  predicate Skips(decoded: Option<Value>) {
    || decoded.None?
    || Truthy(decoded.value) == Some(false)
    || (Truthy(decoded.value) == Some(true) && PyIn("result", decoded.value) == Some(false))
  }

  /** An exception escapes the handler: the body is neither skipped nor
      accepted. */
  predicate Raises(m: Measurement, decoded: Option<Value>) {
    !Skips(decoded) && Accept(m, decoded).None?
  }

  /** The exceptions, one by one: `bool()` of an array that is not a single
      element (ValueError), `'result' in` a scalar (TypeError), a missing
      `resultValues` or a non-dict message (KeyError, TypeError), the
      `EOF_results` test on scalar values (TypeError), and no callable
      `result_callback` configured (KeyError, TypeError). */
  lemma RaisesExactly(m: Measurement, decoded: Option<Value>)
    ensures Raises(m, decoded) <==>
      && decoded.Some?
      && var msg := decoded.value;
         || Truthy(msg).None?
         || (&& Truthy(msg) == Some(true)
             && (|| PyIn("result", msg).None?
                 || (&& PyIn("result", msg) == Some(true)
                     && (|| Field(msg, "resultValues").None?
                         || PyIn(EofMarker, Field(msg, "resultValues").value).None?
                         || m.config.None?
                         || m.config.value.resultCallback.NoCallback?))))
  {
  }

  /** The results receiver handling a stream of decoded bodies until it is
      stopped, or until an exception escapes the handler; after either, the
      rest of the stream is not handled. */
  function Run(m: Measurement, msgs: seq<Option<Value>>): (r: Drive)
    ensures r.m == m.(results := r.m.results, stopped := r.m.stopped)
    ensures m.stopped || |msgs| == 0 ==> r == Drive(m, [], false)
    ensures r.died ==> !r.m.stopped
    decreases |msgs|
  {
    if |msgs| == 0 || m.stopped then Drive(m, [], false)
    else if Raises(m, msgs[0]) then Drive(m, [], true)
    else
      var s := OnResult(m, msgs[0]);
      var t := Run(s.m, msgs[1..]);
      Drive(t.m, s.events + t.events, t.died)
  }

  /** Over a stream on an open subscription: the old results are a prefix
      of the new ones, no appended batch contains the end marker, every
      delivery is either an appended batch or the one delivery of the end
      marker, and the receiver is stopped once, exactly when it ends up
      stopped. Nothing else about the measurement changes. */
  lemma {:induction false} RunAccounting(m: Measurement, msgs: seq<Option<Value>>)
    requires m.resultsOpen
    ensures var r := Run(m, msgs);
      && m.results <= r.m.results
      && (forall i | |m.results| <= i < |r.m.results| :: PyIn(EofMarker, r.m.results[i]) == Some(false))
      && Count(r.events, Delivers) == |r.m.results| - |m.results| + (if r.m.stopped && !m.stopped then 1 else 0)
      && Count(r.events, StopsResults) == (if r.m.stopped && !m.stopped then 1 else 0)
    decreases |msgs|
  {
    if |msgs| > 0 && !m.stopped && !Raises(m, msgs[0]) {
      var s := OnResult(m, msgs[0]);
      RunAccounting(s.m, msgs[1..]);
      var t := Run(s.m, msgs[1..]);
      CountAppend(s.events, t.events, Delivers);
      CountAppend(s.events, t.events, StopsResults);
      match Accept(m, msgs[0])
      case None =>
      case Some(d) =>
        CountShort(Deliver(d.callback, d.values), StopResultsReceiver, Delivers);
        CountShort(Deliver(d.callback, d.values), StopResultsReceiver, StopsResults);
    }
  }

  /** The handler itself has no stop guard: on a stopped measurement it
      still appends an accepted batch. Only the stream driver `Run` drops
      what arrives after the stop. */
  lemma HandlerHasNoStopGuard(m: Measurement, decoded: Option<Value>)
    requires m.stopped && Accept(m, decoded).Some? && !Accept(m, decoded).value.eof
    ensures OnResult(m, decoded).m.results == m.results + [Accept(m, decoded).value.values]
    ensures Run(m, [decoded]) == Drive(m, [], false)
  {
  }

  /** Handling `a` then `b` is handling `a + b`, unless handling `a` ended
      in an exception, after which `b` is not handled at all. */
  lemma {:induction false} RunAppend(m: Measurement, a: seq<Option<Value>>, b: seq<Option<Value>>)
    ensures var s := Run(m, a);
      Run(m, a + b) == if s.died then s else var t := Run(s.m, b); Drive(t.m, s.events + t.events, t.died)
    decreases |a|
  {
    if |a| == 0 {
      EmptyLeft(b);
    } else if !m.stopped {
      assert a == [a[0]] + a[1..];
      Associative([a[0]], a[1..], b);
      if Raises(m, a[0]) {
        RaiseEndsStream(m, a[0], a[1..] + b);
      } else {
        var h := OnResult(m, a[0]);
        RunCons(m, a[0], a[1..] + b);
        RunAppend(h.m, a[1..], b);
        var s := Run(h.m, a[1..]);
        var t := Run(s.m, b);
        Associative(h.events, s.events, t.events);
      }
    }
  }

  /** A stream that has not stopped handles a first body that does not
      raise, then the rest. */
  lemma RunCons(m: Measurement, x: Option<Value>, rest: seq<Option<Value>>)
    requires !m.stopped && !Raises(m, x)
    ensures var h := OnResult(m, x); var t := Run(h.m, rest);
      Run(m, [x] + rest) == Drive(t.m, h.events + t.events, t.died)
  {
    assert ([x] + rest)[1..] == rest;
  }

  /** A body that raises ends the stream where it is: nothing after it is
      handled, and the state is the one before it. */
  lemma RaiseEndsStream(m: Measurement, x: Option<Value>, rest: seq<Option<Value>>)
    requires !m.stopped && Raises(m, x)
    ensures Run(m, [x] + rest) == Drive(m, [], true)
  {
    assert ([x] + rest)[0] == x;
  }

  /** Once the stream has stopped, or died of an exception, later messages
      change nothing. */
  lemma IgnoredAfterStop(m: Measurement, a: seq<Option<Value>>, b: seq<Option<Value>>)
    requires Run(m, a).m.stopped || Run(m, a).died
    ensures Run(m, a + b) == Run(m, a)
  {
    RunAppend(m, a, b);
  }

  /** `configure` of this version: the schema is `parameters_schema`. */
  function Configure(m: Measurement, validate: (Value, Value) -> bool, schedule: Value,
                     parameters: Value, timestamp: string, config: Config): (r: Configured)
    ensures r.Raised? <==> KStr(SchemaKey) !in KeySet(m.capability)
    ensures r.Returned? ==> (r.accepted <==> validate(parameters, Get(m.capability, KStr(SchemaKey)).value))
    ensures r.Returned? && !r.accepted ==> r.m == m
    ensures r.Returned? && r.accepted ==>
      && Get(r.m.specMessage, ParametersKey) == Some(parameters)
      && r.m.config == Some(config)
  {
    Lifecycle.Configure(m, SchemaKey, validate, schedule, parameters, timestamp, config)
  }

  /** A results message `{"result": True, "resultValues": values}`. */
  function ResultMessage(values: Value): Value {
    Dict([Entry(KStr("result"), Bool(true)), Entry(KStr("resultValues"), values)])
  }

  lemma ResultMessageFields(values: Value)
    ensures Truthy(ResultMessage(values)) == Some(true)
    ensures PyIn("result", ResultMessage(values)) == Some(true)
    ensures Field(ResultMessage(values), "resultValues") == Some(values)
  {
    var es := [Entry(KStr("result"), Bool(true)), Entry(KStr("resultValues"), values)];
    assert KStr("result") in KeySet(es) by { assert es[0] in es; }
    assert KStr("resultValues") in KeySet(es) by { assert es[1] in es; }
    IndexOfAt(es, KStr("resultValues"), 1);
  }

  /** A batch holding an array of other than one element makes the
      `EOF_results` test raise ValueError, which ends the stream there. */
  lemma AmbiguousBatchRaises(m: Measurement, a: seq<int>, rest: seq<Option<Value>>)
    requires !m.stopped && |a| != 1
    ensures Raises(m, Some(ResultMessage(List([NdArray(a)]))))
    ensures Run(m, [Some(ResultMessage(List([NdArray(a)])))] + rest) == Drive(m, [], true)
  {
    var values := List([NdArray(a)]);
    ResultMessageFields(values);
    assert Ambiguous(values.items[0]) && Str(EofMarker) !in values.items[..0];
    RaiseEndsStream(m, Some(ResultMessage(values)), rest);
  }

  /** One batch `[1, 2]` then the end marker: the callback is called twice,
      one batch is kept, and the results receiver is stopped once. */
  lemma BatchThenEof(m: Measurement, cb: nat)
    requires m.resultsOpen && !m.stopped && m.results == []
    requires m.config.Some? && m.config.value.resultCallback == Callback(cb)
    ensures var r := Run(m, [Some(ResultMessage(List([Int(1), Int(2)]))), Some(ResultMessage(List([Str(EofMarker)])))]);
      && r.m.results == [List([Int(1), Int(2)])]
      && r.m.stopped && !r.died
      && r.events == [Deliver(Callback(cb), List([Int(1), Int(2)])),
                      Deliver(Callback(cb), List([Str(EofMarker)])),
                      StopResultsReceiver]
  {
    var batch := List([Int(1), Int(2)]);
    var eof := List([Str(EofMarker)]);
    var msgs := [Some(ResultMessage(batch)), Some(ResultMessage(eof))];
    assert msgs[1..][1..] == [];
    ResultMessageFields(batch);
    ResultMessageFields(eof);
    assert PyIn(EofMarker, batch) == Some(false) by {
      PyEqStr(EofMarker, Int(1));
      PyEqStr(EofMarker, Int(2));
    }
    assert PyIn(EofMarker, eof) == Some(true) by {
      PyEqStr(EofMarker, Str(EofMarker));
    }
    assert Accept(m, msgs[0]) == Some(Delivery(Callback(cb), batch, false));
    var s := OnResult(m, msgs[0]);
    assert s == Step(m.(results := [batch]), [Deliver(Callback(cb), batch)]);
    assert Accept(s.m, msgs[1]) == Some(Delivery(Callback(cb), eof, true));
    var t := OnResult(s.m, msgs[1]);
    assert t.events == [Deliver(Callback(cb), eof), StopResultsReceiver];
    assert Run(t.m, msgs[1..][1..]) == Drive(t.m, [], false);
  }
}

=== FILE: client_multiverse.dfy ===
/** The version-specific part of the alternate client (`multiverse.py`):
    JSON-only result messages, the string `EOF` as end marker (itself
    delivered and stored), and `configure` against the `parameters` entry. */
module MultiverseClient {
  import opened Wrappers
  import opened Values
  import opened Lifecycle
  import opened Seqs

  /** A result whose values equal this string ends the stream. */
  const EofMarker := "EOF"

  /** Where this version keeps the parameter schema in a capability. */
  const SchemaKey := "parameters"

  /** The checks of the result handler, in source order: the message
      contains `result` (no truthiness test here), it is a dict holding
      `resultValues`, and a callable result callback is configured. The
      callback and the values when all pass. */
  function Accept(m: Measurement, decoded: Option<Value>): (r: Option<(Callback, Value)>)
    ensures r.Some? <==>
      && decoded.Some?
      && PyIn("result", decoded.value) == Some(true)
      && Field(decoded.value, "resultValues").Some?
      && m.config.Some? && m.config.value.resultCallback.Callback?
    ensures r.Some? ==>
      r.value == (m.config.value.resultCallback, Field(decoded.value, "resultValues").value)
  {
    match decoded
    case None => None
    case Some(msg) =>
      if PyIn("result", msg) != Some(true) then None
      else match Field(msg, "resultValues")
        case None => None
        case Some(values) =>
          if m.config.None? || m.config.value.resultCallback.NoCallback? then None
          else Some((m.config.value.resultCallback, values))
  }

  /** `result_receiver_on_message_callback` on the JSON-decoded body: the
      values go to the callback and are appended, end marker included; the
      end marker (compared with Python `==`, so only the string `EOF`
      matches) also stops the results receiver. */
  function OnResult(m: Measurement, decoded: Option<Value>): (r: Step)
    ensures r.m == m.(results := r.m.results, stopped := r.m.stopped)
    ensures Accept(m, decoded).None? ==> r == Step(m, [])
    ensures Accept(m, decoded).Some? ==>
      var (cb, values) := Accept(m, decoded).value;
      && r.m.results == m.results + [values]
      && r.events == [Deliver(cb, values)] + (if values == Str(EofMarker) then [StopResultsReceiver] else [])
      && r.m.stopped == (m.stopped || values == Str(EofMarker))
  {
    match Accept(m, decoded)
    case None => Step(m, [])
    case Some((cb, values)) =>
      PyEqStr(EofMarker, values);
      var eof := PyEq(values, Str(EofMarker));
      Step(m.(results := m.results + [values], stopped := m.stopped || eof),
           [Deliver(cb, values)] + (if eof then [StopResultsReceiver] else []))
  }

  /** The only body the handler passes over without an exception: a
      message without `result`. */
  predicate Skips(decoded: Option<Value>) {
    decoded.Some? && PyIn("result", decoded.value) == Some(false)
  }

  /** An exception escapes the handler: the body is neither skipped nor
      accepted. */
  predicate Raises(m: Measurement, decoded: Option<Value>) {
    !Skips(decoded) && Accept(m, decoded).None?
  }

  /** The exceptions, one by one: `json.loads` failing (nothing catches
      it), `'result' in` a scalar (TypeError), a missing `resultValues` or
      a non-dict message (KeyError, TypeError), and no callable
      `result_callback` configured (KeyError, TypeError). */
  lemma RaisesExactly(m: Measurement, decoded: Option<Value>)
    ensures Raises(m, decoded) <==>
      || decoded.None?
      || PyIn("result", decoded.value).None?
      || (&& PyIn("result", decoded.value) == Some(true)
          && (|| Field(decoded.value, "resultValues").None?
              || m.config.None?
              || m.config.value.resultCallback.NoCallback?))
  {
  }

  /** The results receiver handling a stream of decoded bodies until it is
      stopped, or until an exception escapes the handler; after either, the
      rest of the stream is not handled. */
  function Run(m: Measurement, msgs: seq<Option<Value>>): (r: Drive)
    ensures r.m == m.(results := r.m.results, stopped := r.m.stopped)
    ensures m.stopped || |msgs| == 0 ==> r == Drive(m, [], false)
    ensures r.died ==> !r.m.stopped
    decreases |msgs|
  {
    if |msgs| == 0 || m.stopped then Drive(m, [], false)
    else if Raises(m, msgs[0]) then Drive(m, [], true)
    else
      var s := OnResult(m, msgs[0]);
      var t := Run(s.m, msgs[1..]);
      Drive(t.m, s.events + t.events, t.died)
  }

  /** One message: at most one value appended and delivered, and the
      receiver stopped exactly when that value is the end marker. */
  lemma OnResultAccounting(m: Measurement, decoded: Option<Value>)
    requires !m.stopped
    ensures var s := OnResult(m, decoded);
      && m.results <= s.m.results && |s.m.results| <= |m.results| + 1
      && Count(s.events, Delivers) == |s.m.results| - |m.results|
      && Count(s.events, StopsResults) == (if s.m.stopped then 1 else 0)
      && (s.m.stopped <==> |s.m.results| > |m.results| && s.m.results[|m.results|] == Str(EofMarker))
  {
    match Accept(m, decoded)
    case None =>
    case Some((cb, values)) =>
      CountShort(Deliver(cb, values), StopResultsReceiver, Delivers);
      CountShort(Deliver(cb, values), StopResultsReceiver, StopsResults);
  }

  /** Over a stream: the old results are a prefix of the new ones, every
      delivered value is appended, and the receiver is stopped at most
      once. */
  lemma {:induction false} RunCounts(m: Measurement, msgs: seq<Option<Value>>)
    ensures var r := Run(m, msgs);
      && m.results <= r.m.results
      && Count(r.events, Delivers) == |r.m.results| - |m.results|
      && Count(r.events, StopsResults) == (if r.m.stopped && !m.stopped then 1 else 0)
    decreases |msgs|
  {
    if |msgs| > 0 && !m.stopped && !Raises(m, msgs[0]) {
      var s := OnResult(m, msgs[0]);
      OnResultAccounting(m, msgs[0]);
      RunCounts(s.m, msgs[1..]);
      var t := Run(s.m, msgs[1..]);
      CountAppend(s.events, t.events, Delivers);
      CountAppend(s.events, t.events, StopsResults);
    }
  }

  /** The handler appends at most one value, and stops exactly when it
      appends the end marker. */
  lemma OnResultShape(m: Measurement, decoded: Option<Value>)
    requires !m.stopped
    ensures var s := OnResult(m, decoded);
      && m.results <= s.m.results && |s.m.results| <= |m.results| + 1
      && (s.m.stopped <==> |s.m.results| > |m.results| && s.m.results[|m.results|] == Str(EofMarker))
  {
  }

  /** A stream only adds results. */
  lemma {:induction false} RunPrefix(m: Measurement, msgs: seq<Option<Value>>)
    ensures m.results <= Run(m, msgs).m.results
    decreases |msgs|
  {
    if |msgs| > 0 && !m.stopped && !Raises(m, msgs[0]) {
      RunPrefix(OnResult(m, msgs[0]).m, msgs[1..]);
    }
  }

  /** Growing `a` to `b` by at most one result other than `x`, then to `c`
      with no `x` before its last result, puts no `x` before the last one
      of `c` either. */
  lemma MarkerOnlyLast(a: seq<Value>, b: seq<Value>, c: seq<Value>, x: Value)
    requires a <= b <= c && |b| <= |a| + 1
    requires |b| > |a| ==> b[|a|] != x
    requires forall i | |b| <= i < |c| - 1 :: c[i] != x
    ensures forall i | |a| <= i < |c| - 1 :: c[i] != x
    ensures (|c| > |b| && c[|c| - 1] == x) <==> (|c| > |a| && c[|c| - 1] == x)
  {
    if |b| > |a| {
      assert c[|a|] == b[|a|];
    }
  }

  /** Over a stream that was running: the end marker appears among the new
      results only as the last, and it is there exactly when the stream
      stopped. */
  lemma {:induction false} RunEndsAtMarker(m: Measurement, msgs: seq<Option<Value>>)
    requires !m.stopped
    ensures var r := Run(m, msgs);
      && (forall i | |m.results| <= i < |r.m.results| - 1 :: r.m.results[i] != Str(EofMarker))
      && (r.m.stopped <==> |r.m.results| > |m.results| && r.m.results[|r.m.results| - 1] == Str(EofMarker))
    decreases |msgs|
  {
    if |msgs| > 0 && !Raises(m, msgs[0]) {
      var s := OnResult(m, msgs[0]);
      OnResultShape(m, msgs[0]);
      var t := Run(s.m, msgs[1..]);
      assert Run(m, msgs).m == t.m;
      RunPrefix(s.m, msgs[1..]);
      if !s.m.stopped {
        RunEndsAtMarker(s.m, msgs[1..]);
        MarkerOnlyLast(m.results, s.m.results, t.m.results, Str(EofMarker));
      }
    }
  }

  /** The handler itself has no stop guard: on a stopped measurement it
      still appends what it accepts. Only the stream driver `Run` drops
      what arrives after the stop. */
  lemma HandlerHasNoStopGuard(m: Measurement, decoded: Option<Value>)
    requires m.stopped && Accept(m, decoded).Some?
    ensures OnResult(m, decoded).m.results == m.results + [Accept(m, decoded).value.1]
    ensures Run(m, [decoded]) == Drive(m, [], false)
  {
  }

  /** Handling `a` then `b` is handling `a + b`, unless handling `a` ended
      in an exception, after which `b` is not handled at all. */
  lemma {:induction false} RunAppend(m: Measurement, a: seq<Option<Value>>, b: seq<Option<Value>>)
    ensures var s := Run(m, a);
      Run(m, a + b) == if s.died then s else var t := Run(s.m, b); Drive(t.m, s.events + t.events, t.died)
    decreases |a|
  {
    if |a| == 0 {
      EmptyLeft(b);
    } else if !m.stopped {
      assert a == [a[0]] + a[1..];
      Associative([a[0]], a[1..], b);
      if Raises(m, a[0]) {
        RaiseEndsStream(m, a[0], a[1..] + b);
      } else {
        var h := OnResult(m, a[0]);
        RunCons(m, a[0], a[1..] + b);
        RunAppend(h.m, a[1..], b);
        var s := Run(h.m, a[1..]);
        var t := Run(s.m, b);
        Associative(h.events, s.events, t.events);
      }
    }
  }

  /** A stream that has not stopped handles a first body that does not
      raise, then the rest. */
  lemma RunCons(m: Measurement, x: Option<Value>, rest: seq<Option<Value>>)
    requires !m.stopped && !Raises(m, x)
    ensures var h := OnResult(m, x); var t := Run(h.m, rest);
      Run(m, [x] + rest) == Drive(t.m, h.events + t.events, t.died)
  {
    assert ([x] + rest)[1..] == rest;
  }

  /** A body that raises, an undecodable one included, ends the stream
      where it is: nothing after it is handled, and the state is the one
      before it. */
  lemma RaiseEndsStream(m: Measurement, x: Option<Value>, rest: seq<Option<Value>>)
    requires !m.stopped && Raises(m, x)
    ensures Run(m, [x] + rest) == Drive(m, [], true)
  {
    assert ([x] + rest)[0] == x;
  }

  /** Once the stream has stopped, or died of an exception, later messages
      change nothing. */
  lemma IgnoredAfterStop(m: Measurement, a: seq<Option<Value>>, b: seq<Option<Value>>)
    requires Run(m, a).m.stopped || Run(m, a).died
    ensures Run(m, a + b) == Run(m, a)
  {
    RunAppend(m, a, b);
  }

  /** `configure` of this version: the schema is the `parameters` entry. */
  function Configure(m: Measurement, validate: (Value, Value) -> bool, schedule: Value,
                     parameters: Value, timestamp: string, config: Config): (r: Configured)
    ensures r.Raised? <==> KStr(SchemaKey) !in KeySet(m.capability)
    ensures r.Returned? ==> (r.accepted <==> validate(parameters, Get(m.capability, KStr(SchemaKey)).value))
    ensures r.Returned? && !r.accepted ==> r.m == m
    ensures r.Returned? && r.accepted ==>
      && Get(r.m.specMessage, ParametersKey) == Some(parameters)
      && r.m.config == Some(config)
  {
    Lifecycle.Configure(m, SchemaKey, validate, schedule, parameters, timestamp, config)
  }
}

=== FILE: coincidence.dfy ===
/** `CoincidencePlotter` of the GUI without its figures: the accumulated
    histogram and the bin edges, reset and updated with each result. */
module Coincidence {
  import opened Wrappers
  import opened Values

  /** `accumulated_histogram` and `bin_edges`, as whatever values the
      results carried or the accumulation built. */
  datatype Plotter = Plotter(histogram: Value, binEdges: Value)

  /** `reset`: both lists empty. */
  function Reset(): (p: Plotter)
    ensures Truthy(p.histogram) == Some(false) && Truthy(p.binEdges) == Some(false)
  {
    Plotter(List([]), List([]))
  }

  /** The numbers a histogram value iterates over: the elements of a list
      of bools and ints, or of an integer array. None for anything `x + y`
      is not modelled on. */
  function Numbers(v: Value): (r: Option<seq<int>>)
    ensures v.NdArray? ==> r == Some(v.elems)
    ensures v.List? && (forall i | 0 <= i < |v.items| :: IsNumber(v.items[i])) ==>
      r.Some? && |r.value| == |v.items| && forall i | 0 <= i < |v.items| :: r.value[i] == AsInt(v.items[i])
  {
    match v
    case List(xs) =>
      if forall i | 0 <= i < |xs| :: IsNumber(xs[i]) then Some(seq(|xs|, i requires 0 <= i < |xs| => AsInt(xs[i])))
      else None
    case NdArray(a) => Some(a)
    case _ => None
  }

  /** `[x + y for x, y in zip(a, b)]`: element-wise sums, as many as the
      shorter operand has elements. */
  function Sum(a: seq<int>, b: seq<int>): (r: seq<int>)
    ensures |r| == if |a| <= |b| then |a| else |b|
    ensures forall i | 0 <= i < |r| :: r[i] == a[i] + b[i]
  {
    seq(if |a| <= |b| then |a| else |b|, i requires 0 <= i < |a| && i < |b| => a[i] + b[i])
  }

  /** A list of ints. */
  function IntList(xs: seq<int>): (r: Value)
    ensures r.List? && |r.items| == |xs| && forall i | 0 <= i < |xs| :: r.items[i] == Int(xs[i])
  {
    List(seq(|xs|, i requires 0 <= i < |xs| => Int(xs[i])))
  }

  /** `update_data(result)`. A missing `histo_vals` or `bin_edges` raises
      KeyError, and an accumulator whose truth value is ambiguous (an array
      of several elements) raises ValueError; both leave the plotter as it
      was (None). An empty accumulator adopts the result's histogram and
      edges; a non-empty one becomes the element-wise sum, truncated to the
      shorter length, and keeps its edges. */
  function UpdateData(p: Plotter, result: Value): (r: Option<Plotter>)
    ensures Field(result, "histo_vals").None? || Field(result, "bin_edges").None? ==> r.None?
    ensures Truthy(p.histogram).None? ==> r.None?
    ensures Field(result, "histo_vals").Some? && Field(result, "bin_edges").Some?
            && Truthy(p.histogram) == Some(false) ==>
      r == Some(Plotter(Field(result, "histo_vals").value, Field(result, "bin_edges").value))
    ensures r.Some? && Truthy(p.histogram) == Some(true) ==>
      && r.value.binEdges == p.binEdges
      && Field(result, "histo_vals").Some?
      && Numbers(p.histogram).Some? && Numbers(Field(result, "histo_vals").value).Some?
      && r.value.histogram == IntList(Sum(Numbers(p.histogram).value, Numbers(Field(result, "histo_vals").value).value))
  {
    match Field(result, "histo_vals")
    case None => None
    case Some(histo) =>
      match Field(result, "bin_edges")
      case None => None
      case Some(edges) =>
        match Truthy(p.histogram)
        case None => None
        case Some(false) => Some(Plotter(histo, edges))
        case Some(true) =>
          match (Numbers(p.histogram), Numbers(histo))
          case (Some(acc), Some(vals)) => Some(Plotter(IntList(Sum(acc, vals)), p.binEdges))
          case _ => None
  }

  /** A result message carrying a histogram and its bin edges as int lists. */
  function HistogramResult(histogram: seq<int>, edges: seq<int>): Value {
    Dict([Entry(KStr("histo_vals"), IntList(histogram)), Entry(KStr("bin_edges"), IntList(edges))])
  }

  lemma HistogramResultFields(histogram: seq<int>, edges: seq<int>)
    ensures Field(HistogramResult(histogram, edges), "histo_vals") == Some(IntList(histogram))
    ensures Field(HistogramResult(histogram, edges), "bin_edges") == Some(IntList(edges))
  {
    var es := HistogramResult(histogram, edges).entries;
    assert es[0] in es && es[1] in es;
    IndexOfAt(es, KStr("bin_edges"), 1);
  }

  /** The numbers of an int list are its ints. */
  lemma NumbersOfIntList(xs: seq<int>)
    ensures Numbers(IntList(xs)) == Some(xs)
  {
    var v := IntList(xs);
    assert forall i | 0 <= i < |v.items| :: v.items[i] == Int(xs[i]) && IsNumber(v.items[i]);
    assert Numbers(v).Some?;
    var r := Numbers(v).value;
    assert |r| == |xs|;
    assert forall i | 0 <= i < |xs| :: r[i] == AsInt(v.items[i]) == xs[i];
    assert r == xs;
  }

  /** Updates applied in order; the first that raises ends the sequence. */
  function Updates(p: Plotter, results: seq<Value>): Option<Plotter>
    decreases |results|
  {
    if |results| == 0 then Some(p)
    else
      match UpdateData(p, results[0])
      case None => None
      case Some(q) => Updates(q, results[1..])
  }

  /** The element-wise, truncating sum of all histograms. */
  function SumAll(hs: seq<seq<int>>): seq<int>
    requires |hs| >= 1
    decreases |hs|
  {
    if |hs| == 1 then hs[0] else Sum(SumAll(hs[..|hs| - 1]), hs[|hs| - 1])
  }

  lemma {:induction false} SumAllLength(hs: seq<seq<int>>, n: nat)
    requires |hs| >= 1 && forall i | 0 <= i < |hs| :: |hs[i]| >= n
    ensures |SumAll(hs)| >= n
    decreases |hs|
  {
    if |hs| > 1 {
      SumAllLength(hs[..|hs| - 1], n);
    }
  }

  lemma UpdatesSnoc(p: Plotter, results: seq<Value>, last: Value)
    ensures Updates(p, results + [last]) ==
      (if Updates(p, results).None? then None else UpdateData(Updates(p, results).value, last))
    decreases |results|
  {
    if |results| == 0 {
      assert results + [last] == [last];
      match UpdateData(p, last)
      case None =>
      case Some(q) => assert Updates(q, []) == Some(q);
    } else {
      assert (results + [last])[0] == results[0];
      assert (results + [last])[1..] == results[1..] + [last];
      match UpdateData(p, results[0])
      case None =>
      case Some(q) => UpdatesSnoc(q, results[1..], last);
    }
  }

  /** A non-empty int-list accumulator absorbs one more int-list histogram. */
  lemma AccumulateStep(acc: seq<int>, edges: Value, h: seq<int>, e: seq<int>)
    requires |acc| > 0
    ensures UpdateData(Plotter(IntList(acc), edges), HistogramResult(h, e))
         == Some(Plotter(IntList(Sum(acc, h)), edges))
  {
    HistogramResultFields(h, e);
    NumbersOfIntList(acc);
    NumbersOfIntList(h);
  }

  /** The first histogram is adopted by a reset plotter. */
  lemma AdoptFirst(h: seq<int>, e: seq<int>)
    ensures UpdateData(Reset(), HistogramResult(h, e)) == Some(Plotter(IntList(h), IntList(e)))
  {
    HistogramResultFields(h, e);
  }

  /** The result messages carrying the histograms `hs` with the edges `edges`. */
  function Results(hs: seq<seq<int>>, edges: seq<seq<int>>): (r: seq<Value>)
    requires |edges| == |hs|
    ensures |r| == |hs|
    ensures forall i | 0 <= i < |hs| :: r[i] == HistogramResult(hs[i], edges[i])
  {
    seq(|hs|, i requires 0 <= i < |hs| => HistogramResult(hs[i], edges[i]))
  }

  lemma ResultsSnoc(hs: seq<seq<int>>, edges: seq<seq<int>>)
    requires |edges| == |hs| >= 1
    ensures Results(hs, edges) == Results(hs[..|hs| - 1], edges[..|hs| - 1]) + [HistogramResult(hs[|hs| - 1], edges[|hs| - 1])]
  {
  }

  /** From a reset plotter, a run of results with non-empty int-list
      histograms accumulates to their element-wise sum, truncated to the
      shortest, and keeps the first result's bin edges. */
  lemma {:induction false} Accumulates(hs: seq<seq<int>>, edges: seq<seq<int>>)
    requires |hs| >= 1 && |edges| == |hs|
    requires forall i | 0 <= i < |hs| :: |hs[i]| > 0
    ensures Updates(Reset(), Results(hs, edges))
         == Some(Plotter(if |hs| == 1 then IntList(hs[0]) else IntList(SumAll(hs)), IntList(edges[0])))
    decreases |hs|
  {
    var n := |hs| - 1;
    var init := Results(hs[..n], edges[..n]);
    var last := HistogramResult(hs[n], edges[n]);
    ResultsSnoc(hs, edges);
    UpdatesSnoc(Reset(), init, last);
    if n == 0 {
      assert init == [];
      AdoptFirst(hs[0], edges[0]);
    } else {
      Accumulates(hs[..n], edges[..n]);
      assert hs[..n][0] == hs[0] && edges[..n][0] == edges[0];
      var acc := if n == 1 then hs[0] else SumAll(hs[..n]);
      SumAllLength(hs[..n], 1);
      assert SumAll(hs[..n]) == acc;
      AccumulateStep(acc, IntList(edges[0]), hs[n], edges[n]);
    }
  }

  /** A histogram that arrives as an array of several counts is adopted,
      but the next update then raises on `not self.accumulated_histogram`,
      so such results are never summed. */
  lemma ArrayHistogramIsNotAccumulated(first: Value, next: Value, counts: seq<int>)
    requires Field(first, "histo_vals") == Some(NdArray(counts)) && |counts| >= 2
    requires Field(first, "bin_edges").Some?
    ensures UpdateData(Reset(), first).Some?
    ensures UpdateData(UpdateData(Reset(), first).value, next).None?
  {
  }
}

=== FILE: compare.dfy ===
/** `compare_data_structures`: structural equality of decoded results,
    stricter than Python `==` in that the types must match at every dict
    level. */
module Compare {
  import opened Values

  /** `compare_data_structures(a, b)`: different types differ; dicts agree
      when their key sets agree and every value agrees recursively; arrays
      agree element for element; anything else is compared with `==`. */
  predicate CompareDataStructures(a: Value, b: Value)
    decreases a
  {
    if TypeOf(a) != TypeOf(b) then false
    else
      match a
      case Dict(es) =>
        KeySet(es) == KeySet(b.entries)
        && forall i | 0 <= i < |es| :: CompareDataStructures(es[i].val, GetOr(b.entries, es[i].key, Null))
      case NdArray(xs) => b.elems == xs
      case _ => PyEq(a, b)
  }

  /** Values of different types never compare equal, and dicts with
      different key sets never do. */
  lemma TypesAndKeysMustMatch(a: Value, b: Value)
    ensures TypeOf(a) != TypeOf(b) ==> !CompareDataStructures(a, b)
    ensures a.Dict? && b.Dict? && KeySet(a.entries) != KeySet(b.entries) ==> !CompareDataStructures(a, b)
  {
  }

  /** Two dicts with the same key set compare equal exactly when the values
      under every key compare equal. */
  lemma DictsCompareByValues(es: seq<Entry>, fs: seq<Entry>)
    requires Distinct(es) && KeySet(es) == KeySet(fs)
    ensures CompareDataStructures(Dict(es), Dict(fs)) <==>
      forall k | k in KeySet(es) :: CompareDataStructures(GetOr(es, k, Null), GetOr(fs, k, Null))
  {
    if CompareDataStructures(Dict(es), Dict(fs)) {
      forall k | k in KeySet(es)
        ensures CompareDataStructures(GetOr(es, k, Null), GetOr(fs, k, Null))
      {
        var e :| e in es && e.key == k;
        var i :| 0 <= i < |es| && es[i] == e;
        GetEntry(es, i);
      }
    }
    if forall k | k in KeySet(es) :: CompareDataStructures(GetOr(es, k, Null), GetOr(fs, k, Null)) {
      forall i | 0 <= i < |es|
        ensures CompareDataStructures(es[i].val, GetOr(fs, es[i].key, Null))
      {
        assert es[i] in es;
        GetEntry(es, i);
      }
    }
  }

  /** Whatever compares equal here is equal in Python. */
  lemma {:induction false} CompareImpliesPyEq(a: Value, b: Value)
    ensures CompareDataStructures(a, b) ==> PyEq(a, b)
    decreases a
  {
    if CompareDataStructures(a, b) {
      match a
      case Dict(es) =>
        forall i | 0 <= i < |es|
          ensures PyEq(es[i].val, GetOr(b.entries, es[i].key, Null))
        {
          CompareImpliesPyEq(es[i].val, GetOr(b.entries, es[i].key, Null));
        }
      case _ =>
    }
  }

  /** The converse fails: `1 == True` in Python, but the types differ. */
  lemma StricterThanPyEq()
    ensures PyEq(Int(1), Bool(true)) && !CompareDataStructures(Int(1), Bool(true))
  {
  }

  /** Inside a list, elements are compared with `==`, so there a bool and an
      int can still match. */
  lemma ListsUsePyEq()
    ensures CompareDataStructures(List([Int(1)]), List([Bool(true)]))
  {
    assert PyEq(List([Int(1)]), List([Bool(true)])) by {
      assert PyEq(Int(1), Bool(true));
    }
  }

  /** Every well-formed value compares equal to itself. */
  lemma {:induction false} CompareReflexive(a: Value)
    requires Wf(a)
    ensures CompareDataStructures(a, a)
    decreases a
  {
    match a
    case Dict(es) =>
      forall i | 0 <= i < |es|
        ensures CompareDataStructures(es[i].val, GetOr(es, es[i].key, Null))
      {
        GetEntry(es, i);
        CompareReflexive(es[i].val);
      }
    case NdArray(_) =>
    case _ => PyEqReflexive(a);
  }

  /** The comparison is symmetric on well-formed values. */
  lemma {:induction false} CompareSymmetric(a: Value, b: Value)
    requires Wf(a) && Wf(b)
    ensures CompareDataStructures(a, b) ==> CompareDataStructures(b, a)
    decreases a
  {
    if CompareDataStructures(a, b) {
      match a
      case Dict(es) =>
        var fs := b.entries;
        forall j | 0 <= j < |fs|
          ensures CompareDataStructures(fs[j].val, GetOr(es, fs[j].key, Null))
        {
          assert fs[j] in fs;
          assert fs[j].key in KeySet(es);
          var e :| e in es && e.key == fs[j].key;
          var i :| 0 <= i < |es| && es[i] == e;
          GetEntry(es, i);
          GetEntry(fs, j);
          CompareSymmetric(es[i].val, fs[j].val);
        }
      case NdArray(_) =>
      case _ => PyEqSymmetric(a, b);
    }
  }

  /** Insertion order does not matter: two dicts holding the same entries
      compare equal. */
  lemma SameEntriesCompareEqual(es: seq<Entry>, fs: seq<Entry>)
    requires Wf(Dict(es)) && Distinct(fs)
    requires forall e :: e in es <==> e in fs
    ensures CompareDataStructures(Dict(es), Dict(fs))
  {
    assert KeySet(es) == KeySet(fs) by {
      forall k ensures k in KeySet(es) <==> k in KeySet(fs) {
        if k in KeySet(es) {
          var e :| e in es && e.key == k;
          assert e in fs;
        }
        if k in KeySet(fs) {
          var e :| e in fs && e.key == k;
          assert e in es;
        }
      }
    }
    forall i | 0 <= i < |es|
      ensures CompareDataStructures(es[i].val, GetOr(fs, es[i].key, Null))
    {
      assert es[i] in fs;
      GetIffEntry(fs, es[i].key, es[i].val);
      CompareReflexive(es[i].val);
    }
  }
}

=== FILE: lifecycle.dfy ===
/** The client-side Measurement of both client versions: a record of the
    state the Python object keeps, and one pure step function per handler.
    A step returns the new record and the transport actions it performs, in
    order, as events. */
module Lifecycle {
  import opened Wrappers
  import opened Values

  /** Well-known topic specifications and interrupts are published on. */
  const SpecificationsTopic := "topic:///specifications"

  const CapabilityKey := KStr("capability")
  const SpecificationKey := KStr("specification")
  const InterruptKey := KStr("interrupt")
  const ParametersKey := KStr("parameters")
  const ScheduleKey := KStr("schedule")
  const TimestampKey := KStr("timestamp")

  /** A callable handed to `configure`, identified opaquely; `NoCallback` is
      Python `None`. */
  datatype Callback = NoCallback | Callback(id: nat)

  /** The four entries `configure` stores in `self.config`. */
  datatype Config = Config(
    streamResults: bool,
    redirectToStorage: bool,
    resultCallback: Callback,
    completionCallback: Callback)

  /** The externally visible actions of the handlers. */
  datatype Event =
    | ListenReplies(topic: string)                    // a receipt receiver thread is started for a reply topic
    | Publish(topic: string, body: Value, replyTo: string)
    | StopReceiptReceiver
    | OpenResults(topic: string)                      // the results subscription is opened
    | StopResultsReceiver
    | Deliver(callback: Callback, values: Value)      // the result callback is called

  /** The state of a Python `Measurement`: the capability it was made from,
      its specification message, `self.config` (None while it is still the
      empty dict), whether `self.results_receiver` is set, the accumulated
      `self.results`, and whether the results receiver has been stopped. */
  datatype Measurement = Measurement(
    capability: seq<Entry>,
    specMessage: seq<Entry>,
    config: Option<Config>,
    resultsOpen: bool,
    results: seq<Value>,
    stopped: bool)

  /** The outcome of one handler: the new state and the actions taken. */
  datatype Step = Step(m: Measurement, events: seq<Event>)

  /** The outcome of the results receiver over a stream of messages: the
      final state, the actions taken, and whether an exception escaped a
      handler, which ends the receiver's event loop and with it the
      handling of every later message. */
  datatype Drive = Drive(m: Measurement, events: seq<Event>, died: bool)

  /** What every measurement built by `Create` satisfies, and every step keeps:
      the specification message is a dict holding a `specification` entry. */
  predicate Valid(m: Measurement) {
    Distinct(m.specMessage) && SpecificationKey in KeySet(m.specMessage)
  }

  /** `"topic://<id>/results"`. */
  function ResultsTopic(id: string): string {
    "topic://" + id + "/results"
  }

  /** `Measurement(capability, client)`: the specification message is a copy
      of the capability whose `capability` entry is re-keyed `specification`;
      the capability itself is kept as given. None when the capability has
      no `capability` entry, where `pop` raises KeyError. */
  function Create(capability: seq<Entry>): (r: Option<Measurement>)
    requires Distinct(capability)
    ensures r.None? <==> CapabilityKey !in KeySet(capability)
    ensures r.Some? ==>
      var spec := r.value.specMessage;
      && r.value.capability == capability
      && Get(spec, SpecificationKey) == Get(capability, CapabilityKey)
      && CapabilityKey !in KeySet(spec)
      && (forall k | k != CapabilityKey && k != SpecificationKey :: Get(spec, k) == Get(capability, k))
      && r.value.config.None? && !r.value.resultsOpen && r.value.results == [] && !r.value.stopped
    ensures r.Some? ==> Valid(r.value)
  {
    match Get(capability, CapabilityKey)
    case None => None
    case Some(kind) =>
      DeleteKeepsOthers(capability, CapabilityKey);
      var spec := Put(Delete(capability, CapabilityKey), SpecificationKey, kind);
      Some(Measurement(capability, spec, None, false, [], false))
  }

  /** The outcome of `configure`: it raised, or it returned a flag. */
  datatype Configured = Raised | Returned(m: Measurement, accepted: bool)

  /** `configure`. The capability keeps the parameter schema under
      `schemaKey`; a missing schema raises KeyError. `validate(instance,
      schema)` stands for `jsonschema.validate` succeeding; `timestamp` for
      the formatted `datetime.now()`. A rejected configuration changes
      nothing; an accepted one sets exactly the parameters, schedule and
      timestamp of the specification and the whole config. */
  function Configure(m: Measurement, schemaKey: string, validate: (Value, Value) -> bool,
                     schedule: Value, parameters: Value, timestamp: string,
                     config: Config): (r: Configured)
    ensures r.Raised? <==> KStr(schemaKey) !in KeySet(m.capability)
    ensures r.Returned? ==> (r.accepted <==> validate(parameters, Get(m.capability, KStr(schemaKey)).value))
    ensures r.Returned? && !r.accepted ==> r.m == m
    ensures r.Returned? && r.accepted ==>
      var spec := r.m.specMessage;
      && Get(spec, ParametersKey) == Some(parameters)
      && Get(spec, ScheduleKey) == Some(schedule)
      && Get(spec, TimestampKey) == Some(Str(timestamp))
      && (forall k | k != ParametersKey && k != ScheduleKey && k != TimestampKey ::
            Get(spec, k) == Get(m.specMessage, k))
      && r.m == m.(specMessage := spec, config := Some(config))
    ensures r.Returned? && Valid(m) ==> Valid(r.m)
  {
    match Get(m.capability, KStr(schemaKey))
    case None => Raised
    case Some(schema) =>
      if validate(parameters, schema) then
        var spec := Put(Put(Put(m.specMessage, ParametersKey, parameters), ScheduleKey, schedule),
                        TimestampKey, Str(timestamp));
        Returned(m.(specMessage := spec, config := Some(config)), true)
      else
        Returned(m, false)
  }

  /** `receipt_receiver_on_message_callback`. `decoded` is the JSON-decoded
      body (None when `json.loads` raises); `measurementId` stands for
      `Message.calculate_measurement_id`, applied to the receipt. A message
      that is not a receipt changes nothing; a receipt stops the receipt
      receiver; an interrupt receipt does nothing more; any other receipt
      opens the results subscription on the measurement's results topic,
      unless one is open already. */
  function OnReceipt(m: Measurement, decoded: Option<Value>, measurementId: Value -> string): (r: Step)
    ensures decoded.None? || PyIn("receipt", decoded.value) != Some(true) ==> r == Step(m, [])
    ensures decoded.Some? && PyIn("receipt", decoded.value) == Some(true) ==>
      && |r.events| >= 1 && r.events[0] == StopReceiptReceiver
      && (PyIn("interrupt", decoded.value) == Some(true) || m.resultsOpen ==>
            r == Step(m, [StopReceiptReceiver]))
      && (PyIn("interrupt", decoded.value) != Some(true) && !m.resultsOpen ==>
            r == Step(m.(resultsOpen := true),
                      [StopReceiptReceiver, OpenResults(ResultsTopic(measurementId(decoded.value)))]))
  {
    match decoded
    case None => Step(m, [])
    case Some(msg) =>
      if PyIn("receipt", msg) != Some(true) then Step(m, [])
      else if PyIn("interrupt", msg) == Some(true) || m.resultsOpen then Step(m, [StopReceiptReceiver])
      else Step(m.(resultsOpen := true), [StopReceiptReceiver, OpenResults(ResultsTopic(measurementId(msg)))])
  }

  predicate Opens(e: Event) { e.OpenResults? }
  predicate Delivers(e: Event) { e.Deliver? }
  predicate StopsResults(e: Event) { e.StopResultsReceiver? }

  /** How many of the events satisfy `p`. */
  function Count(events: seq<Event>, p: Event -> bool): nat {
    if |events| == 0 then 0
    else (if p(events[0]) then 1 else 0) + Count(events[1..], p)
  }

  lemma {:induction false} CountAppend(a: seq<Event>, b: seq<Event>, p: Event -> bool)
    ensures Count(a + b, p) == Count(a, p) + Count(b, p)
    decreases |a|
  {
    if |a| == 0 {
      assert a + b == b;
    } else {
      assert (a + b)[1..] == a[1..] + b;
      CountAppend(a[1..], b, p);
    }
  }

  /** The count of a one- or two-event run. */
  lemma CountShort(e: Event, f: Event, p: Event -> bool)
    ensures Count([e], p) == (if p(e) then 1 else 0)
    ensures Count([e, f], p) == (if p(e) then 1 else 0) + (if p(f) then 1 else 0)
  {
    assert [e, f][1..] == [f];
    assert [f][1..] == [];
  }

  /** A receipt handler opens a subscription exactly when it turns
      `resultsOpen` on. */
  lemma OnReceiptOpens(m: Measurement, decoded: Option<Value>, measurementId: Value -> string)
    ensures var s := OnReceipt(m, decoded, measurementId);
      Count(s.events, Opens) == (if s.m.resultsOpen && !m.resultsOpen then 1 else 0)
  {
    if decoded.Some? {
      CountShort(StopReceiptReceiver, OpenResults(ResultsTopic(measurementId(decoded.value))), Opens);
    }
  }

  /** A sequence of receipts handled one after the other. */
  function Receipts(m: Measurement, msgs: seq<Option<Value>>, measurementId: Value -> string): Step
    decreases |msgs|
  {
    if |msgs| == 0 then Step(m, [])
    else
      var s := OnReceipt(m, msgs[0], measurementId);
      var t := Receipts(s.m, msgs[1..], measurementId);
      Step(t.m, s.events + t.events)
  }

  /** However many receipts arrive, at most one results subscription is
      opened, none if one was open already, and the subscription is open
      afterwards exactly when it was before or has just been opened.
      Receipts change nothing else. */
  lemma {:induction false} ReceiptsOpenAtMostOnce(m: Measurement, msgs: seq<Option<Value>>, measurementId: Value -> string)
    ensures var r := Receipts(m, msgs, measurementId);
      && Count(r.events, Opens) <= (if m.resultsOpen then 0 else 1)
      && (r.m.resultsOpen <==> m.resultsOpen || Count(r.events, Opens) == 1)
      && r.m == m.(resultsOpen := r.m.resultsOpen)
    decreases |msgs|
  {
    if |msgs| > 0 {
      var s := OnReceipt(m, msgs[0], measurementId);
      ReceiptsOpenAtMostOnce(s.m, msgs[1..], measurementId);
      var t := Receipts(s.m, msgs[1..], measurementId);
      CountAppend(s.events, t.events, Opens);
      OnReceiptOpens(m, msgs[0], measurementId);
    }
  }

  /** `stop`: stops the results receiver if there is one; nothing else changes. */
  function Stop(m: Measurement): (r: Step)
    ensures r.m == m.(stopped := m.stopped || m.resultsOpen)
    ensures r.events == if m.resultsOpen then [StopResultsReceiver] else []
  {
    if m.resultsOpen then Step(m.(stopped := true), [StopResultsReceiver]) else Step(m, [])
  }

  /** `send_measurement` with the receipt it gets: start a receipt receiver
      thread for the fresh `replyTopic`, publish the specification with that
      return address, handle the receipt if one arrives within the wait
      (`receipt` is None when none does), then stop the receipt receiver.
      The publish does not wait for the receiver to subscribe, so the order
      of the events does not mean the subscription is in place first; a
      receipt lost that way is a `receipt` of None. */
  function Submit(m: Measurement, replyTopic: string, receipt: Option<Option<Value>>,
                  measurementId: Value -> string): (r: Step)
    ensures |r.events| >= 3
    ensures r.events[0] == ListenReplies(replyTopic)
    ensures r.events[1] == Publish(SpecificationsTopic, Dict(m.specMessage), replyTopic)
    ensures r.events[|r.events| - 1] == StopReceiptReceiver
    ensures receipt.None? || receipt.value.None? || PyIn("receipt", receipt.value.value) != Some(true) ==>
      r.m == m && |r.events| == 3
    ensures r.m == m.(resultsOpen := r.m.resultsOpen)
    ensures receipt.Some? && receipt.value.Some? && PyIn("receipt", receipt.value.value) == Some(true) ==>
      var msg := receipt.value.value;
      && r.events[2] == StopReceiptReceiver
      && (PyIn("interrupt", msg) == Some(true) || m.resultsOpen ==> r.m == m && |r.events| == 4)
      && (PyIn("interrupt", msg) != Some(true) && !m.resultsOpen ==>
            && r.m.resultsOpen && |r.events| == 5
            && r.events[3] == OpenResults(ResultsTopic(measurementId(msg))))
  {
    var handled := if receipt.None? then Step(m, []) else OnReceipt(m, receipt.value, measurementId);
    var events := [ListenReplies(replyTopic), Publish(SpecificationsTopic, Dict(m.specMessage), replyTopic)]
                  + handled.events + [StopReceiptReceiver];
    Step(handled.m, events)
  }

  /** `send_measurement` hands an arriving receipt to the receipt handler:
      the measurement ends as the handler leaves it, and the handler's
      actions come between the publish and the final stop. */
  lemma SubmitHandlesReceipt(m: Measurement, replyTopic: string, receipt: Option<Value>,
                             measurementId: Value -> string)
    ensures var r := Submit(m, replyTopic, Some(receipt), measurementId);
      var h := OnReceipt(m, receipt, measurementId);
      && r.m == h.m
      && r.events[2..|r.events| - 1] == h.events
  {
    var h := OnReceipt(m, receipt, measurementId);
    var r := Submit(m, replyTopic, Some(receipt), measurementId);
    assert r.events == [ListenReplies(replyTopic), Publish(SpecificationsTopic, Dict(m.specMessage), replyTopic)]
                       + h.events + [StopReceiptReceiver];
  }

  /** The specification message of `Measurement(aliased, client)` where
      `aliased` is `spec` with its `specification` value also stored under
      `capability`: the constructor moves it back, so only a `capability`
      entry `spec` may have had is gone. */
  function ConstructorCopy(spec: seq<Entry>): (copy: seq<Entry>)
    requires Distinct(spec) && SpecificationKey in KeySet(spec)
    ensures Get(copy, SpecificationKey) == Get(spec, SpecificationKey)
    ensures CapabilityKey !in KeySet(copy)
    ensures forall k | k != CapabilityKey :: Get(copy, k) == Get(spec, k)
    ensures Distinct(copy)
  {
    var aliased := Put(spec, CapabilityKey, Get(spec, SpecificationKey).value);
    Create(aliased).value.specMessage
  }

  /** The message an interrupt publishes, built from the specification `spec`
      exactly as `interrupt` builds it: the `capability` entry added by
      `interrupt` is re-keyed back by the constructor, then the `specification` entry
      is moved to the key `interrupt`. */
  function InterruptMessage(spec: seq<Entry>): (msg: seq<Entry>)
    requires Distinct(spec) && SpecificationKey in KeySet(spec)
    ensures Get(msg, InterruptKey) == Get(spec, SpecificationKey)
    ensures SpecificationKey !in KeySet(msg) && CapabilityKey !in KeySet(msg)
    ensures forall k | k != InterruptKey && k != SpecificationKey && k != CapabilityKey ::
      Get(msg, k) == Get(spec, k)
    ensures Distinct(msg)
  {
    var sv := Get(spec, SpecificationKey).value;
    var tagged := Put(ConstructorCopy(spec), InterruptKey, sv);
    DeleteKeepsOthers(tagged, SpecificationKey);
    Delete(tagged, SpecificationKey)
  }

  /** The result of `interrupt`: the measurement interrupted, the throw-away
      measurement that carried the interrupt, and the actions taken. */
  datatype Interruption = Interruption(original: Measurement, carrier: Measurement, events: seq<Event>)

  /** The throw-away measurement `Measurement(interrupt_msg, client)` once
      its specification has become the interrupt message. */
  function Carrier(m: Measurement): (c: Measurement)
    requires Valid(m)
    ensures c.specMessage == InterruptMessage(m.specMessage)
    ensures c.config.None? && !c.resultsOpen && c.results == [] && !c.stopped
  {
    var aliased := Put(m.specMessage, CapabilityKey, Get(m.specMessage, SpecificationKey).value);
    Create(aliased).value.(specMessage := InterruptMessage(m.specMessage))
  }

  /** `interrupt` as written: `interrupt_msg = self.specification_message`
      aliases the measurement's own message, so the `capability` entry
      written first stays in it after the call. */
  function InterruptAsWritten(m: Measurement, replyTopic: string, receipt: Option<Option<Value>>,
                              measurementId: Value -> string): (r: Interruption)
    requires Valid(m)
    ensures Get(r.original.specMessage, CapabilityKey) == Get(m.specMessage, SpecificationKey)
    ensures forall k | k != CapabilityKey :: Get(r.original.specMessage, k) == Get(m.specMessage, k)
    ensures r.carrier.specMessage == InterruptMessage(m.specMessage)
    ensures |r.events| >= 3
    ensures r.events[1] == Publish(SpecificationsTopic, Dict(InterruptMessage(m.specMessage)), replyTopic)
    ensures m.resultsOpen ==> r.events[|r.events| - 1] == StopResultsReceiver
    ensures !m.resultsOpen ==> r.events[|r.events| - 1] == StopReceiptReceiver
  {
    var aliased := Put(m.specMessage, CapabilityKey, Get(m.specMessage, SpecificationKey).value);
    var carrier := Carrier(m);
    var sent := Submit(carrier, replyTopic, receipt, measurementId);
    var stop := Stop(m.(specMessage := aliased));
    Interruption(stop.m, sent.m, sent.events + stop.events)
  }

  /** `interrupt` with the interrupt message built from a copy, leaving the
      measurement's own specification untouched: publish the interrupt
      message on the specifications topic, then stop an open results
      receiver. */
  function Interrupt(m: Measurement, replyTopic: string, receipt: Option<Option<Value>>,
                     measurementId: Value -> string): (r: Interruption)
    requires Valid(m)
    ensures r.original == m.(stopped := m.stopped || m.resultsOpen)
    ensures |r.events| >= 3
    ensures var msg := r.carrier.specMessage;
      && Get(msg, InterruptKey) == Get(m.specMessage, SpecificationKey)
      && SpecificationKey !in KeySet(msg) && CapabilityKey !in KeySet(msg)
      && (forall k | k != InterruptKey && k != SpecificationKey && k != CapabilityKey ::
            Get(msg, k) == Get(m.specMessage, k))
    ensures r.events[1] == Publish(SpecificationsTopic, Dict(r.carrier.specMessage), replyTopic)
    ensures m.resultsOpen ==> r.events[|r.events| - 1] == StopResultsReceiver
    ensures !m.resultsOpen ==> r.events[|r.events| - 1] == StopReceiptReceiver
  {
    var carrier := Carrier(m);
    var sent := Submit(carrier, replyTopic, receipt, measurementId);
    var stop := Stop(m);
    Interruption(stop.m, sent.m, sent.events + stop.events)
  }

  /** Both versions of `interrupt` publish the same message and end in the
      same state except for the extra `capability` entry the written one
      leaves in the measurement's specification. */
  lemma InterruptVersionsDifferOnlyByAlias(m: Measurement, replyTopic: string,
                                          receipt: Option<Option<Value>>, measurementId: Value -> string)
    requires Valid(m)
    requires CapabilityKey !in KeySet(m.specMessage)
    ensures var written := InterruptAsWritten(m, replyTopic, receipt, measurementId);
      var fixed := Interrupt(m, replyTopic, receipt, measurementId);
      && written.carrier == fixed.carrier
      && written.events == fixed.events
      && fixed.original.specMessage == m.specMessage
      && written.original.specMessage == m.specMessage + [Entry(CapabilityKey, Get(m.specMessage, SpecificationKey).value)]
      && written.original == fixed.original.(specMessage := written.original.specMessage)
  {
  }
}

=== FILE: parameters.dfy ===
/** `reconstruct_parameters` of the GUI: flat input ids such as
    `channels_0.channel` are read back into nested dicts and lists. The
    update of `current_level` in place is modelled as a functional walk that
    returns the updated subtree and stores it back into its parent. */
module Parameters {
  import opened Wrappers
  import opened Text
  import opened Values
  import opened Seqs

  /** One dot-separated segment of an input id: a plain key, an array
      element `base_N`, or a segment the source cannot unpack (ValueError). */
  datatype Segment = Plain(name: string) | Indexed(base: string, index: nat) | Malformed

  /** The segment rule as written: split at every `_`; the segment is an
      array element when the second piece is all digits, and then there must
      be exactly two pieces. A segment whose second piece is not digits is a
      plain key, whatever follows. */
  function SegmentAsWritten(key: string): (r: Segment)
    ensures '_' !in key ==> r == Plain(key)
    ensures r.Indexed? ==> '_' in key && '_' !in r.base
    ensures r.Malformed? ==> |Split(key, '_')| > 2
  {
    var parts := Split(key, '_');
    if '_' in key && |parts| >= 2 && IsDigits(parts[1]) then
      if |parts| == 2 then Indexed(parts[0], DigitsValue(parts[1])) else Malformed
    else Plain(key)
  }

  /** The segment rule that inverts the `<name>_<i>` ids the input form
      builds for array items: the index is what follows the LAST `_`, so the
      base may itself contain `_`. */
  function SegmentOf(key: string): (r: Segment)
    ensures '_' !in key ==> r == Plain(key)
    ensures r.Indexed? ==> |r.base| < |key| && key == r.base + "_" + key[|r.base| + 1..] && IsDigits(key[|r.base| + 1..])
    ensures !r.Malformed?
  {
    match LastIndex(key, '_')
    case None => Plain(key)
    case Some(p) =>
      var digits := key[p + 1..];
      if IsDigits(digits) then
        assert key == key[..p] + "_" + digits;
        Indexed(key[..p], DigitsValue(digits))
      else Plain(key)
  }

  /** The corrected rule reads back every array-item id, whatever the base. */
  lemma SegmentOfItemId(base: string, i: nat)
    ensures SegmentOf(base + "_" + NatToString(i)) == Indexed(base, i)
  {
    var digits := NatToString(i);
    NatToStringRoundTrip(i);
    assert '_' !in digits;
    var key := base + "_" + digits;
    LastIndexBeforeSuffix(base, digits, '_');
    assert key[..|base|] == base;
    assert key[|base| + 1..] == digits;
  }

  /** The written rule reads an array-item id correctly when the base has no
      `_`, so the corrected rule changes nothing for such ids. */
  lemma SegmentAsWrittenItemId(base: string, i: nat)
    requires '_' !in base
    ensures SegmentAsWritten(base + "_" + NatToString(i)) == Indexed(base, i)
  {
    var digits := NatToString(i);
    NatToStringRoundTrip(i);
    assert '_' !in digits;
    var key := base + "_" + digits;
    assert key == Join("_", [base, digits]);
    SplitOfJoin([base, digits], '_');
    assert key[|base|] == '_';
  }

  /** Where the written rule reads an array element, the corrected rule
      reads the same one. */
  lemma WrittenIndexedAgrees(key: string)
    requires SegmentAsWritten(key).Indexed?
    ensures SegmentOf(key) == SegmentAsWritten(key)
  {
    var parts := Split(key, '_');
    JoinOfSplit(key, '_');
    assert parts == [parts[0], parts[1]];
    assert parts[1..] == [parts[1]];
    JoinCons("_", parts[0], [parts[1]]);
    LastIndexBeforeSuffix(parts[0], parts[1], '_');
    assert key[..|parts[0]|] == parts[0];
    assert key[|parts[0]| + 1..] == parts[1];
  }

  /** The written rule misreads the id of an item of an array whose name
      contains `_`: it is taken for a plain key. */
  lemma SegmentAsWrittenMisreadsBase()
    ensures SegmentAsWritten("time_tagger_0") == Plain("time_tagger_0")
  {
    var pieces := ["time", "tagger", "0"];
    assert forall i | 0 <= i < |pieces| :: '_' !in pieces[i];
    assert Join("_", pieces) == "time_tagger_0";
    SplitOfJoin(pieces, '_');
    assert !IsDigit("tagger"[0]);
  }

  /** A key `<a>_<n>_<b>` with a number in the middle cannot be unpacked by
      the written rule: `base_key, index = key.split("_")` gets three pieces
      (ValueError). */
  lemma WrittenRuleRaisesOnMiddleDigits(a: string, n: nat, b: string)
    requires '_' !in a && '_' !in b
    ensures SegmentAsWritten(a + "_" + NatToString(n) + "_" + b) == Malformed
  {
    var digits := NatToString(n);
    NatToStringRoundTrip(n);
    DigitsHaveNoSeparators(digits);
    assert "_" == ['_'];
    SplitThree(a, digits, b, '_');
    assert (a + "_" + digits + "_" + b)[|a|] == '_';
  }

  /** The corrected rule reads such a key as a plain one when its last
      piece is not a number. */
  lemma CorrectedRuleReadsMiddleDigitsPlain(a: string, n: nat, b: string)
    requires '_' !in b && !IsDigits(b)
    ensures SegmentOf(a + "_" + NatToString(n) + "_" + b) == Plain(a + "_" + NatToString(n) + "_" + b)
  {
    var front := a + "_" + NatToString(n);
    var key := front + "_" + b;
    assert "_" == ['_'];
    LastIndexBeforeSuffix(front, b, '_');
    assert key[|front| + 1..] == b;
  }

  /** The corrected rule reads the same id as the first item of `time_tagger`. */
  lemma SegmentOfReadsBase()
    ensures SegmentOf("time_tagger_0") == Indexed("time_tagger", 0)
  {
    SegmentOfItemId("time_tagger", 0);
    assert NatToString(0) == "0";
    assert "time_tagger" + "_" + "0" == "time_tagger_0";
  }

  /** `len(slot) <= index` padded as the source pads: a list gets `{}`
      appended up to length `index + 1`; a string, dict or array that is too
      short has no `append` (AttributeError); a scalar has no `len`
      (TypeError). Long enough values are left alone. */
  function Pad(slot: Value, index: nat): (r: Option<Value>)
    ensures slot.List? ==>
      && r.Some? && r.value.List?
      && |r.value.items| == (if |slot.items| <= index then index + 1 else |slot.items|)
      && r.value.items[..|slot.items|] == slot.items
      && (forall j | |slot.items| <= j < |r.value.items| :: r.value.items[j] == Dict([]))
    ensures slot.Str? ==> (r.Some? <==> index < |slot.s|) && (r.Some? ==> r.value == slot)
    ensures slot.Dict? ==> (r.Some? <==> index < |slot.entries|) && (r.Some? ==> r.value == slot)
    ensures slot.NdArray? ==> (r.Some? <==> index < |slot.elems|) && (r.Some? ==> r.value == slot)
    ensures slot.Null? || slot.Bool? || slot.Int? ==> r.None?
  {
    match slot
    case List(xs) =>
      if |xs| <= index then Some(List(xs + seq(index + 1 - |xs|, _ => Dict([])))) else Some(slot)
    case Str(s) => if index < |s| then Some(slot) else None
    case Dict(es) => if index < |es| then Some(slot) else None
    case NdArray(a) => if index < |a| then Some(slot) else None
    case _ => None
  }

  /** `slot[index]`: a list or array element, a one-character string, or
      the dict entry under the integer key (KeyError when absent). */
  function Index(slot: Value, index: nat): (r: Option<Value>)
    ensures slot.List? ==> (r.Some? <==> index < |slot.items|) && (r.Some? ==> r.value == slot.items[index])
    ensures slot.Dict? ==> r == Get(slot.entries, KInt(index))
    ensures slot.Null? || slot.Bool? || slot.Int? ==> r.None?
  {
    match slot
    case List(xs) => if index < |xs| then Some(xs[index]) else None
    case Str(s) => if index < |s| then Some(Str([s[index]])) else None
    case Dict(es) => Get(es, KInt(index))
    case NdArray(a) => if index < |a| then Some(Int(a[index])) else None
    case _ => None
  }

  /** Writes an updated element back where `slot[index]` was found. A string
      or array element is never walked into, so it comes back unchanged. */
  function StoreBack(slot: Value, index: nat, child: Value): (r: Value)
    ensures slot.List? && index < |slot.items| ==>
      r == List(slot.items[index := child])
    ensures slot.Dict? ==>
      && r.Dict? && Get(r.entries, KInt(index)) == Some(child)
      && (forall k | k != KInt(index) :: Get(r.entries, k) == Get(slot.entries, k))
  {
    match slot
    case List(xs) => if index < |xs| then List(xs[index := child]) else slot
    case Dict(es) => Dict(Put(es, KInt(index), child))
    case _ => slot
  }

  /** One id assigned into `cur` along `keys` with the segment rule `rule`:
      a plain segment creates an empty dict if absent and descends, or
      assigns the value when it is the last one; an array segment creates
      the list if absent, pads it and descends into the element (the value
      is not assigned when the last segment is an array element). A level
      that is not a dict, a malformed segment, or a failing pad or
      subscript makes the whole call raise (None). Entries of `cur` other
      than the one under the first segment are left as they were. */
  function Walk(rule: string -> Segment, cur: Value, keys: seq<string>, value: Value): (r: Option<Value>)
    ensures |keys| == 0 ==> r == Some(cur)
    ensures |keys| > 0 && !cur.Dict? ==> r.None?
    ensures |keys| > 0 && r.Some? ==>
      && cur.Dict? && r.value.Dict? && !rule(keys[0]).Malformed?
      && var top := KStr(if rule(keys[0]).Plain? then rule(keys[0]).name else rule(keys[0]).base);
         && top in KeySet(r.value.entries)
         && (forall k | k != top :: Get(r.value.entries, k) == Get(cur.entries, k))
    ensures |keys| > 0 && r.Some? && Distinct(cur.entries) ==> Distinct(r.value.entries)
    decreases |keys|
  {
    if |keys| == 0 then Some(cur)
    else if !cur.Dict? then None
    else
      var es := cur.entries;
      match rule(keys[0])
      case Malformed => None
      case Plain(k) =>
        if |keys| == 1 then Some(Dict(Put(es, KStr(k), value)))
        else
          (match Walk(rule, GetOr(es, KStr(k), Dict([])), keys[1..], value)
           case None => None
           case Some(child) => Some(Dict(Put(es, KStr(k), child))))
      case Indexed(base, index) =>
        match Pad(GetOr(es, KStr(base), List([])), index)
        case None => None
        case Some(padded) =>
          match Index(padded, index)
          case None => None
          case Some(element) =>
            match Walk(rule, element, keys[1..], value)
            case None => None
            case Some(child) => Some(Dict(Put(es, KStr(base), StoreBack(padded, index, child))))
  }

  /** Reading a value back along `keys`, independently of how it was written:
      `v[name]` for a plain segment, `v[base][index]` for an array one. */
  function Read(rule: string -> Segment, v: Value, keys: seq<string>): Option<Value>
    decreases |keys|
  {
    if |keys| == 0 then Some(v)
    else
      match rule(keys[0])
      case Malformed => None
      case Plain(k) =>
        (match Field(v, k)
         case None => None
         case Some(child) => Read(rule, child, keys[1..]))
      case Indexed(base, index) =>
        match Field(v, base)
        case None => None
        case Some(slot) =>
          match Index(slot, index)
          case None => None
          case Some(element) => Read(rule, element, keys[1..])
  }

  /** Reading through a plain segment the walk went through reads what the
      walk stored below it. */
  lemma ReadPlainStep(rule: string -> Segment, es: seq<Entry>, keys: seq<string>, value: Value, k: string)
    requires |keys| > 1 && rule(keys[0]) == Plain(k)
    requires Walk(rule, Dict(es), keys, value).Some?
    ensures Walk(rule, GetOr(es, KStr(k), Dict([])), keys[1..], value).Some?
    ensures Read(rule, Walk(rule, Dict(es), keys, value).value, keys)
         == Read(rule, Walk(rule, GetOr(es, KStr(k), Dict([])), keys[1..], value).value, keys[1..])
  {
    var child := Walk(rule, GetOr(es, KStr(k), Dict([])), keys[1..], value).value;
    assert Field(Walk(rule, Dict(es), keys, value).value, k) == Some(child);
  }

  /** Reading through an array segment the walk went through reads what the
      walk stored in the element. */
  lemma ReadIndexedStep(rule: string -> Segment, es: seq<Entry>, keys: seq<string>, value: Value, base: string, index: nat)
    requires |keys| >= 1 && rule(keys[0]) == Indexed(base, index)
    requires Walk(rule, Dict(es), keys, value).Some?
    ensures var padded := Pad(GetOr(es, KStr(base), List([])), index);
      && padded.Some? && Index(padded.value, index).Some?
      && var element := Index(padded.value, index).value;
         && Walk(rule, element, keys[1..], value).Some?
         && Read(rule, Walk(rule, Dict(es), keys, value).value, keys)
            == Read(rule, Walk(rule, element, keys[1..], value).value, keys[1..])
  {
    var padded := Pad(GetOr(es, KStr(base), List([])), index).value;
    var element := Index(padded, index).value;
    var child := Walk(rule, element, keys[1..], value).value;
    assert Field(Walk(rule, Dict(es), keys, value).value, base) == Some(StoreBack(padded, index, child));
    assert Index(StoreBack(padded, index, child), index) == Some(child);
  }

  /** Whatever the rule, an id whose last segment is plain reads back the
      value just written along it. */
  lemma {:induction false} WalkThenRead(rule: string -> Segment, cur: Value, keys: seq<string>, value: Value)
    requires |keys| >= 1 && rule(keys[|keys| - 1]).Plain?
    requires Walk(rule, cur, keys, value).Some?
    ensures Read(rule, Walk(rule, cur, keys, value).value, keys) == Some(value)
    decreases |keys|
  {
    var es := cur.entries;
    assert cur == Dict(es);
    assert |keys| > 1 ==> keys[1..][|keys[1..]| - 1] == keys[|keys| - 1];
    match rule(keys[0])
    case Plain(k) =>
      if |keys| > 1 {
        ReadPlainStep(rule, es, keys, value, k);
        WalkThenRead(rule, GetOr(es, KStr(k), Dict([])), keys[1..], value);
      }
    case Indexed(base, index) =>
      ReadIndexedStep(rule, es, keys, value, base, index);
      var element := Index(Pad(GetOr(es, KStr(base), List([])), index).value, index).value;
      WalkThenRead(rule, element, keys[1..], value);
  }

  /** An array segment leaves the list under its base at least `index + 1`
      long, keeps the elements that were there other than the one walked
      into, and fills the new slots with `{}`. */
  lemma ArraySegmentPads(rule: string -> Segment, es: seq<Entry>, keys: seq<string>, value: Value, xs: seq<Value>)
    requires |keys| >= 1 && rule(keys[0]).Indexed?
    requires GetOr(es, KStr(rule(keys[0]).base), List([])) == List(xs)
    requires Walk(rule, Dict(es), keys, value).Some?
    ensures var index := rule(keys[0]).index;
      match Get(Walk(rule, Dict(es), keys, value).value.entries, KStr(rule(keys[0]).base))
      case Some(List(ys)) =>
        && |ys| == (if |xs| <= index then index + 1 else |xs|)
        && (forall j | 0 <= j < |xs| && j != index :: ys[j] == xs[j])
        && (forall j | |xs| <= j < |ys| && j != index :: ys[j] == Dict([]))
      case _ => false
  {
  }

  /** An intermediate plain segment descends into the dict already under
      its name, and creates an empty one only when the name is absent. */
  lemma PlainSegmentDescends(rule: string -> Segment, es: seq<Entry>, keys: seq<string>, value: Value)
    requires |keys| >= 2 && rule(keys[0]).Plain?
    requires Walk(rule, Dict(es), keys, value).Some?
    ensures var k := rule(keys[0]).name;
      Walk(rule, GetOr(es, KStr(k), Dict([])), keys[1..], value).Some?
      && Get(Walk(rule, Dict(es), keys, value).value.entries, KStr(k))
         == Walk(rule, GetOr(es, KStr(k), Dict([])), keys[1..], value)
  {
  }

  /** `zip(xs, ys)`: pairs up to the shorter length. */
  function Zip<A, B>(xs: seq<A>, ys: seq<B>): (r: seq<(A, B)>)
    ensures |r| == if |xs| <= |ys| then |xs| else |ys|
    ensures forall i | 0 <= i < |r| :: r[i] == (xs[i], ys[i])
  {
    if |xs| == 0 || |ys| == 0 then [] else [(xs[0], ys[0])] + Zip(xs[1..], ys[1..])
  }

  /** Each id split at `.` into its segments. */
  function Paths(ids: seq<string>): (r: seq<seq<string>>)
    ensures |r| == |ids|
    ensures forall i | 0 <= i < |ids| :: r[i] == Split(ids[i], '.')
  {
    seq(|ids|, i requires 0 <= i < |ids| => Split(ids[i], '.'))
  }

  /** The loop over `zip(param_values, param_ids)`: each id's segments are
      walked from the root; the first failure aborts the whole call. */
  function Apply(rule: string -> Segment, params: Value, pairs: seq<(Value, seq<string>)>): (r: Option<Value>)
    ensures params.Dict? && r.Some? ==> r.value.Dict?
    decreases |pairs|
  {
    if |pairs| == 0 then Some(params)
    else
      match Walk(rule, params, pairs[0].1, pairs[0].0)
      case None => None
      case Some(next) => Apply(rule, next, pairs[1..])
  }

  /** Ids are applied in order: one more pair is one more walk. */
  lemma {:induction false} ApplySnoc(rule: string -> Segment, params: Value, pairs: seq<(Value, seq<string>)>,
                                     v: Value, keys: seq<string>)
    ensures Apply(rule, params, pairs).None? ==> Apply(rule, params, pairs + [(v, keys)]).None?
    ensures Apply(rule, params, pairs).Some? ==>
      Apply(rule, params, pairs + [(v, keys)]) == Walk(rule, Apply(rule, params, pairs).value, keys, v)
    decreases |pairs|
  {
    var last := (v, keys);
    if |pairs| == 0 {
      assert pairs + [last] == [last];
      var w := Walk(rule, params, keys, v);
      if w.Some? {
        assert Apply(rule, w.value, []) == w;
      }
    } else {
      assert (pairs + [last])[0] == pairs[0];
      assert (pairs + [last])[1..] == pairs[1..] + [last];
      match Walk(rule, params, pairs[0].1, pairs[0].0)
      case None =>
      case Some(next) => ApplySnoc(rule, next, pairs[1..], v, keys);
    }
  }

  /** The last id written wins: after all pairs, reading along the last
      id's segments gives its value, whatever earlier ids wrote there. */
  lemma LastWriteWins(rule: string -> Segment, params: Value, pairs: seq<(Value, seq<string>)>, v: Value, keys: seq<string>)
    requires |keys| >= 1 && rule(keys[|keys| - 1]).Plain?
    requires Apply(rule, params, pairs + [(v, keys)]).Some?
    ensures Read(rule, Apply(rule, params, pairs + [(v, keys)]).value, keys) == Some(v)
  {
    ApplySnoc(rule, params, pairs, v, keys);
    WalkThenRead(rule, Apply(rule, params, pairs).value, keys, v);
  }

  /** Zipping one more pair onto equally long lists appends that pair. */
  lemma ZipSnoc<A, B>(xs: seq<A>, ys: seq<B>, x: A, y: B)
    requires |xs| == |ys|
    ensures Zip(xs + [x], ys + [y]) == Zip(xs, ys) + [(x, y)]
  {
    var l := Zip(xs + [x], ys + [y]);
    var r := Zip(xs, ys) + [(x, y)];
    assert |l| == |r|;
    forall i | 0 <= i < |l| ensures l[i] == r[i] {
      if i < |xs| {
        assert l[i] == ((xs + [x])[i], (ys + [y])[i]) == (xs[i], ys[i]);
      }
    }
  }

  lemma PathsSnoc(ids: seq<string>, id: string)
    ensures Paths(ids + [id]) == Paths(ids) + [Split(id, '.')]
  {
    assert forall i | 0 <= i < |ids| :: (ids + [id])[i] == ids[i];
  }

  /** The loop of `reconstruct_parameters` with the segment rule `rule`:
      ids and values zipped, each id's segments walked from `{}`. */
  function Reconstruct(rule: string -> Segment, ids: seq<string>, values: seq<Value>): (r: Option<Value>)
    ensures r.Some? ==> r.value.Dict?
    ensures |ids| == 0 || |values| == 0 ==> r == Some(Dict([]))
  {
    Apply(rule, Dict([]), Zip(values, Paths(ids)))
  }

  /** `reconstruct_parameters` as written, over the id strings (the
      `index` entries of the id dicts) and the values. */
  function ReconstructParametersAsWritten(ids: seq<string>, values: seq<Value>): (r: Option<Value>)
    ensures r.Some? ==> r.value.Dict?
    ensures |ids| == 0 || |values| == 0 ==> r == Some(Dict([]))
  {
    Reconstruct(SegmentAsWritten, ids, values)
  }

  /** `reconstruct_parameters` with the corrected segment rule. */
  function ReconstructParameters(ids: seq<string>, values: seq<Value>): (r: Option<Value>)
    ensures r.Some? ==> r.value.Dict?
    ensures |ids| == 0 || |values| == 0 ==> r == Some(Dict([]))
  {
    Reconstruct(SegmentOf, ids, values)
  }

  /** One more id and value is one more pair at the end of the fold. */
  lemma ReconstructSnoc(rule: string -> Segment, ids: seq<string>, values: seq<Value>, id: string, v: Value)
    requires |ids| == |values|
    ensures Reconstruct(rule, ids + [id], values + [v])
         == Apply(rule, Dict([]), Zip(values, Paths(ids)) + [(v, Split(id, '.'))])
  {
    PathsSnoc(ids, id);
    ZipSnoc(values, Paths(ids), v, Split(id, '.'));
  }

  /** At the level of `reconstruct_parameters`, for either segment rule:
      when the last id's segments `keys` end in a plain one and the call
      succeeds, reading along them gives the last value. */
  lemma {:induction false} LastIdWins(rule: string -> Segment, ids: seq<string>, values: seq<Value>,
                                      id: string, keys: seq<string>, v: Value)
    requires |ids| == |values| && keys == Split(id, '.')
    requires rule(keys[|keys| - 1]).Plain?
    requires Reconstruct(rule, ids + [id], values + [v]).Some?
    ensures Read(rule, Reconstruct(rule, ids + [id], values + [v]).value, keys) == Some(v)
  {
    ReconstructSnoc(rule, ids, values, id, v);
    LastWriteWins(rule, Dict([]), Zip(values, Paths(ids)), v, keys);
  }

  /** `zip` truncates, whatever the segment rule: values beyond the last id
      are ignored, and so are ids beyond the last value. */
  lemma ReconstructTruncates(rule: string -> Segment, ids: seq<string>, values: seq<Value>)
    ensures |ids| <= |values| ==> Reconstruct(rule, ids, values) == Reconstruct(rule, ids, values[..|ids|])
    ensures |values| <= |ids| ==> Reconstruct(rule, ids, values) == Reconstruct(rule, ids[..|values|], values)
  {
    if |ids| <= |values| {
      assert Zip(values, Paths(ids)) == Zip(values[..|ids|], Paths(ids));
    }
    if |values| <= |ids| {
      assert Zip(values, Paths(ids)) == Zip(values, Paths(ids[..|values|]));
    }
  }

  /** Two rules that agree on every segment of `keys` walk alike. */
  lemma {:induction false} WalkSameRule(r1: string -> Segment, r2: string -> Segment, cur: Value, keys: seq<string>, value: Value)
    requires forall i | 0 <= i < |keys| :: r1(keys[i]) == r2(keys[i])
    ensures Walk(r1, cur, keys, value) == Walk(r2, cur, keys, value)
    decreases |keys|
  {
    if |keys| > 0 && cur.Dict? {
      var es := cur.entries;
      assert r1(keys[0]) == r2(keys[0]);
      assert forall i | 0 <= i < |keys[1..]| :: keys[1..][i] == keys[i + 1];
      match r1(keys[0])
      case Malformed =>
      case Plain(k) =>
        WalkSameRule(r1, r2, GetOr(es, KStr(k), Dict([])), keys[1..], value);
      case Indexed(base, index) =>
        match Pad(GetOr(es, KStr(base), List([])), index)
        case None =>
        case Some(padded) =>
          match Index(padded, index)
          case None =>
          case Some(element) => WalkSameRule(r1, r2, element, keys[1..], value);
    }
  }

  /** Two rules that agree on every segment of every pair apply alike. */
  lemma {:induction false} ApplySameRule(r1: string -> Segment, r2: string -> Segment, params: Value,
                                         pairs: seq<(Value, seq<string>)>)
    requires forall i, j | 0 <= i < |pairs| && 0 <= j < |pairs[i].1| :: r1(pairs[i].1[j]) == r2(pairs[i].1[j])
    ensures Apply(r1, params, pairs) == Apply(r2, params, pairs)
    decreases |pairs|
  {
    if |pairs| > 0 {
      WalkSameRule(r1, r2, params, pairs[0].1, pairs[0].0);
      assert forall i | 0 <= i < |pairs[1..]| :: pairs[1..][i] == pairs[i + 1];
      match Walk(r1, params, pairs[0].1, pairs[0].0)
      case None =>
      case Some(next) => ApplySameRule(r1, r2, next, pairs[1..]);
    }
  }

  /** When no id contains `_`, the corrected rule changes nothing: both
      versions of `reconstruct_parameters` give the same result. */
  lemma RulesAgreeWithoutUnderscore(ids: seq<string>, values: seq<Value>)
    requires forall i | 0 <= i < |ids| :: '_' !in ids[i]
    ensures ReconstructParametersAsWritten(ids, values) == ReconstructParameters(ids, values)
  {
    var pairs := Zip(values, Paths(ids));
    forall i, j | 0 <= i < |pairs| && 0 <= j < |pairs[i].1|
      ensures SegmentAsWritten(pairs[i].1[j]) == SegmentOf(pairs[i].1[j])
    {
      SplitKeepsOut(ids[i], '.', '_');
    }
    ApplySameRule(SegmentAsWritten, SegmentOf, Dict([]), pairs);
  }

  /** An id `<key>.<field>` has the two segments either side of the dot. */
  lemma TwoSegments(key: string, field: string)
    requires '.' !in key && '.' !in field
    ensures Split(key + "." + field, '.') == [key, field]
  {
    var pieces := [key, field];
    assert pieces[1..] == [field];
    assert Join(".", pieces) == key + "." + field;
    SplitOfJoin(pieces, '.');
  }

  /** A digit string has no `.` or `_` in it. */
  lemma DigitsHaveNoSeparators(s: string)
    requires IsDigits(s)
    ensures '.' !in s && '_' !in s
  {
    assert forall ch | ch in s :: IsDigit(ch);
  }

  /** A plain leaf segment assigns the value under its name. */
  lemma WalkPlainLeaf(rule: string -> Segment, es: seq<Entry>, key: string, value: Value)
    requires rule(key).Plain?
    ensures Walk(rule, Dict(es), [key], value) == Some(Dict(Put(es, KStr(rule(key).name), value)))
  {
  }

  /** A plain segment with more to come descends into a fresh `{}` when the
      name is absent. */
  lemma WalkPlainFresh(rule: string -> Segment, es: seq<Entry>, key: string, rest: seq<string>, value: Value, child: Value)
    requires rule(key).Plain? && KStr(rule(key).name) !in KeySet(es) && |rest| >= 1
    requires Walk(rule, Dict([]), rest, value) == Some(child)
    ensures Walk(rule, Dict(es), [key] + rest, value) == Some(Dict(es + [Entry(KStr(rule(key).name), child)]))
  {
    assert ([key] + rest)[1..] == rest;
  }

  /** Padding a missing list for item `index` gives `index + 1` empty dicts. */
  lemma PadEmpty(index: nat)
    ensures Pad(List([]), index) == Some(List(seq(index + 1, _ => Dict([]))))
  {
    assert [] + seq(index + 1, _ => Dict([])) == seq(index + 1, _ => Dict([]));
  }

  /** Storing the walked item back into a freshly padded list. */
  lemma StoreLast(index: nat, child: Value)
    ensures Index(List(seq(index + 1, _ => Dict([]))), index) == Some(Dict([]))
    ensures StoreBack(List(seq(index + 1, _ => Dict([]))), index, child)
         == List(seq(index, _ => Dict([])) + [child])
  {
    var padded: seq<Value> := seq(index + 1, _ => Dict([]));
    assert padded[index := child] == seq(index, _ => Dict([])) + [child];
  }

  /** An array segment with more to come creates the list, pads it to
      `index + 1` empty dicts and descends into the last one, when the base
      is absent. */
  lemma WalkIndexedFresh(rule: string -> Segment, es: seq<Entry>, key: string, rest: seq<string>, value: Value, child: Value)
    requires rule(key).Indexed? && KStr(rule(key).base) !in KeySet(es) && |rest| >= 1
    requires Walk(rule, Dict([]), rest, value) == Some(child)
    ensures var index := rule(key).index;
      Walk(rule, Dict(es), [key] + rest, value)
        == Some(Dict(es + [Entry(KStr(rule(key).base), List(seq(index, _ => Dict([])) + [child]))]))
  {
    var index := rule(key).index;
    var base := KStr(rule(key).base);
    assert ([key] + rest)[0] == key && ([key] + rest)[1..] == rest;
    PadEmpty(index);
    StoreLast(index, child);
  }

  /** Reconstructing from one id is one walk from `{}`. */
  lemma SingleId(rule: string -> Segment, id: string, v: Value)
    ensures Apply(rule, Dict([]), Zip([v], Paths([id]))) == Walk(rule, Dict([]), Split(id, '.'), v)
  {
    var pairs := Zip([v], Paths([id]));
    assert pairs == [(v, Split(id, '.'))];
    var w := Walk(rule, Dict([]), Split(id, '.'), v);
    if w.Some? {
      assert Apply(rule, w.value, pairs[1..]) == w;
    }
  }

  /** An array segment followed by a plain field, from `{}`. */
  lemma WalkItemField(rule: string -> Segment, key: string, field: string, v: Value)
    requires rule(key).Indexed? && rule(field) == Plain(field)
    ensures Walk(rule, Dict([]), [key, field], v)
         == Some(Dict([Entry(KStr(rule(key).base),
                             List(seq(rule(key).index, _ => Dict([])) + [Dict([Entry(KStr(field), v)])]))]))
  {
    var inner := Dict([Entry(KStr(field), v)]);
    WalkPlainLeaf(rule, [], field, v);
    EmptyLeft([Entry(KStr(field), v)]);
    WalkIndexedFresh(rule, [], key, [field], v, inner);
    PairOfSingletons(key, field);
    EmptyLeft([Entry(KStr(rule(key).base), List(seq(rule(key).index, _ => Dict([])) + [inner]))]);
  }

  /** A plain segment followed by a plain field, from `{}`. */
  lemma WalkKeyField(rule: string -> Segment, key: string, field: string, v: Value)
    requires rule(key) == Plain(key) && rule(field) == Plain(field)
    ensures Walk(rule, Dict([]), [key, field], v)
         == Some(Dict([Entry(KStr(key), Dict([Entry(KStr(field), v)]))]))
  {
    var inner := Dict([Entry(KStr(field), v)]);
    WalkPlainLeaf(rule, [], field, v);
    EmptyLeft([Entry(KStr(field), v)]);
    WalkPlainFresh(rule, [], key, [field], v, inner);
    PairOfSingletons(key, field);
    EmptyLeft([Entry(KStr(key), inner)]);
  }

  /** The single id `<base>_<n>.<field>` under the corrected rule: a list of
      `n + 1` items under `base`, the last holding the field, the ones
      before it empty dicts. This holds whatever `base` is, `_` included. */
  lemma ItemFieldId(base: string, n: nat, field: string, v: Value)
    requires '.' !in base && '.' !in field && '_' !in field
    ensures ReconstructParameters([base + "_" + NatToString(n) + "." + field], [v])
         == Some(Dict([Entry(KStr(base), List(seq(n, _ => Dict([])) + [Dict([Entry(KStr(field), v)])]))]))
  {
    var key := base + "_" + NatToString(n);
    NatToStringRoundTrip(n);
    DigitsHaveNoSeparators(NatToString(n));
    TwoSegments(key, field);
    SegmentOfItemId(base, n);
    WalkItemField(SegmentOf, key, field, v);
    SingleId(SegmentOf, key + "." + field, v);
  }

  lemma JoinThree(p: string, q: string, r: string)
    ensures Join("_", [p, q, r]) == p + "_" + q + "_" + r
  {
    JoinCons("_", q, [r]);
    JoinCons("_", p, [q, r]);
    assert [p] + [q, r] == [p, q, r];
    assert [q] + [r] == [q, r];
  }

  /** The written rule splits `<p>_<q>_<digits>` into three pieces. */
  lemma ThreePieces(p: string, q: string, digits: string)
    requires '_' !in p && '_' !in q && '_' !in digits
    ensures Split(p + "_" + q + "_" + digits, '_') == [p, q, digits]
  {
    var pieces := [p, q, digits];
    assert forall i | 0 <= i < |pieces| :: '_' !in pieces[i];
    JoinThree(p, q, digits);
    SplitOfJoin(pieces, '_');
  }

  /** The same id under the written rule, when the base is two words
      `<p>_<q>` and `q` is not a number: the whole `<base>_<n>` is taken
      for a plain key, so the item becomes a dict entry instead of a list
      element. `time_tagger_0.channel` is such an id. */
  lemma ItemFieldIdAsWritten(p: string, q: string, n: nat, field: string, v: Value)
    requires '.' !in p && '.' !in q && '_' !in p && '_' !in q && !IsDigits(q)
    requires '.' !in field && '_' !in field
    ensures var key := p + "_" + q + "_" + NatToString(n);
      ReconstructParametersAsWritten([key + "." + field], [v])
        == Some(Dict([Entry(KStr(key), Dict([Entry(KStr(field), v)]))]))
  {
    var digits := NatToString(n);
    var key := p + "_" + q + "_" + digits;
    NatToStringRoundTrip(n);
    DigitsHaveNoSeparators(digits);
    TwoSegments(key, field);
    ThreePieces(p, q, digits);
    assert key[|p|] == '_';
    assert SegmentAsWritten(key) == Plain(key);
    WalkKeyField(SegmentAsWritten, key, field, v);
    SingleId(SegmentAsWritten, key + "." + field, v);
  }
}

=== FILE: schedule.dfy ===
/** `generate_schedule_string` of the GUI, and a parser that recovers its
    three segments. */
module Schedule {
  import opened Wrappers
  import opened Text
  import opened Seqs

  /** The ValueError raised for an invalid start configuration. */
  datatype ScheduleError = InvalidStart

  /** Python truthiness of an optional text field (None and "" are false). */
  predicate Given(x: Option<string>) {
    x.Some? && x.value != ""
  }

  /** `x or '00'`. */
  function OrZero(x: Option<string>): (r: string)
    ensures Given(x) ==> r == x.value
    ensures !Given(x) ==> r == "00"
  {
    if Given(x) then x.value else "00"
  }

  /** The three dropdowns of a time of day. */
  datatype Clock = Clock(hours: Option<string>, minutes: Option<string>, seconds: Option<string>)

  /** `"HH:MM:SS"` with each missing component `00`. */
  function TimeOfDay(c: Clock): string {
    OrZero(c.hours) + ":" + OrZero(c.minutes) + ":" + OrZero(c.seconds)
  }

  /** `"<date> HH:MM:SS"`, the form of both a custom start and an end. */
  function DateTime(date: string, c: Clock): string {
    date + " " + TimeOfDay(c)
  }

  /** The end segment: a date-time, or empty without an end date. */
  function EndSegment(endDate: Option<string>, end: Clock): (r: string)
    ensures r == "" <==> !Given(endDate)
  {
    if Given(endDate) then DateTime(endDate.value, end) else ""
  }

  /** No dropdown of the clock holds the character `ch`. */
  predicate ClockAvoids(c: Clock, ch: char) {
    && (c.hours.Some? ==> ch !in c.hours.value)
    && (c.minutes.Some? ==> ch !in c.minutes.value)
    && (c.seconds.Some? ==> ch !in c.seconds.value)
  }

  /** Splitting a time of day at `:` gives each given component, or `00`
      for a missing one. */
  lemma TimeOfDayReadBack(c: Clock)
    requires ClockAvoids(c, ':')
    ensures Split(TimeOfDay(c), ':') == [OrZero(c.hours), OrZero(c.minutes), OrZero(c.seconds)]
  {
    var h, m, s := OrZero(c.hours), OrZero(c.minutes), OrZero(c.seconds);
    assert ':' !in "00";
    assert ':' !in h && ':' !in m && ':' !in s;
    assert ":" == [':'];
    SplitThree(h, m, s, ':');
  }

  /** Splitting a date-time at its first space gives the date and the time
      of day, when neither the date nor a component contains a space. */
  lemma DateTimeReadBack(date: string, c: Clock)
    requires ' ' !in date && ClockAvoids(c, ' ') && ClockAvoids(c, ':')
    ensures Split(DateTime(date, c), ' ') == [date, TimeOfDay(c)]
    ensures Split(TimeOfDay(c), ':') == [OrZero(c.hours), OrZero(c.minutes), OrZero(c.seconds)]
  {
    var h, m, s := OrZero(c.hours), OrZero(c.minutes), OrZero(c.seconds);
    assert ' ' !in "00" && ' ' !in ":";
    assert ' ' !in h && ' ' !in m && ' ' !in s;
    assert ' ' !in TimeOfDay(c);
    assert " " == [' '];
    SplitAtFirst(date, TimeOfDay(c), ' ');
    TimeOfDayReadBack(c);
  }

  /** `generate_schedule_string`. The start is `now`, or a custom date with
      its time of day; any other start raises. The result joins start, end
      and the `|`-joined options with `" | "`. */
  function GenerateScheduleString(startOption: Option<string>, customStartDate: Option<string>, start: Clock,
                                  endDate: Option<string>, end: Clock, options: seq<string>): (r: Result<string, ScheduleError>)
    ensures r.Failure? <==> startOption != Some("now") && !(startOption == Some("custom") && Given(customStartDate))
    ensures startOption == Some("now") ==>
      r == Success("now" + " | " + EndSegment(endDate, end) + " | " + Join("|", options))
    ensures startOption == Some("custom") && Given(customStartDate) ==>
      r == Success(DateTime(customStartDate.value, start) + " | " + EndSegment(endDate, end) + " | " + Join("|", options))
  {
    var startSegment :=
      if startOption == Some("now") then Success("now")
      else if startOption == Some("custom") && Given(customStartDate) then
        Success(DateTime(customStartDate.value, start))
      else Failure(InvalidStart);
    match startSegment
    case Failure(e) => Failure(e)
    case Success(s) => Success(s + " | " + EndSegment(endDate, end) + " | " + Join("|", options))
  }

  /** The segments a schedule string carries. */
  datatype Segments = Segments(start: string, end: string, options: seq<string>)

  /** Reads a schedule string back: split at `|`, strip the single spaces
      the `" | "` separators put around the start and end segments and in
      front of the first option. */
  function ParseSchedule(s: string): (r: Option<Segments>)
    ensures r.Some? ==> |r.value.options| >= 1
  {
    ReadPieces(Split(s, '|'))
  }

  /** The segments of the `|`-separated pieces of a schedule string. */
  function ReadPieces(parts: seq<string>): (r: Option<Segments>)
    ensures r.Some? ==> |r.value.options| >= 1
  {
    if |parts| >= 3
       && |parts[0]| >= 1 && parts[0][|parts[0]| - 1] == ' '
       && |parts[1]| >= 2 && parts[1][0] == ' ' && parts[1][|parts[1]| - 1] == ' '
       && |parts[2]| >= 1 && parts[2][0] == ' '
    then Some(Segments(parts[0][..|parts[0]| - 1], parts[1][1..|parts[1]| - 1],
                       [parts[2][1..]] + parts[3..]))
    else None
  }

  /** Prefixing the first piece prefixes the joined string. */
  lemma JoinPrefixFirst(sep: string, p: string, xs: seq<string>)
    requires |xs| >= 1
    ensures Join(sep, [p + xs[0]] + xs[1..]) == p + Join(sep, xs)
  {
    var ys := [p + xs[0]] + xs[1..];
    if |xs| > 1 {
      assert ys[1..] == xs[1..];
    }
  }

  /** Spreading the spaces of the two `" | "` separators onto the pieces. */
  lemma SpreadSeparators(startSeg: string, endSeg: string, j: string)
    ensures startSeg + " | " + endSeg + " | " + j
         == (startSeg + " ") + "|" + ((" " + endSeg + " ") + "|" + (" " + j))
  {
    assert " | " == " " + "|" + " ";
  }

  /** The `|`-free pieces of a schedule string, with the spaces of the
      `" | "` separators attached. */
  function Pieces(startSeg: string, endSeg: string, options: seq<string>): seq<string>
    requires |options| >= 1
  {
    [startSeg + " "] + ([" " + endSeg + " "] + ([" " + options[0]] + options[1..]))
  }

  /** The schedule string is the `|`-join of its pieces. */
  lemma ScheduleAsPieces(startSeg: string, endSeg: string, options: seq<string>)
    requires |options| >= 1
    ensures startSeg + " | " + endSeg + " | " + Join("|", options)
         == Join("|", Pieces(startSeg, endSeg, options))
  {
    var a, b := startSeg + " ", " " + endSeg + " ";
    var rest := [" " + options[0]] + options[1..];
    JoinPrefixFirst("|", " ", options);
    JoinCons("|", b, rest);
    JoinCons("|", a, [b] + rest);
    SpreadSeparators(startSeg, endSeg, Join("|", options));
  }

  /** Parsing the join of the pieces gives the segments back. */
  lemma ParsePieces(startSeg: string, endSeg: string, options: seq<string>)
    requires |options| >= 1
    requires '|' !in startSeg && '|' !in endSeg
    requires forall i | 0 <= i < |options| :: '|' !in options[i]
    ensures ParseSchedule(Join("|", Pieces(startSeg, endSeg, options))) == Some(Segments(startSeg, endSeg, options))
  {
    var pieces := Pieces(startSeg, endSeg, options);
    assert forall i | 0 <= i < |pieces| :: '|' !in pieces[i] by {
      assert forall i | 3 <= i < |pieces| :: pieces[i] == options[i - 2];
    }
    SplitOfJoin(pieces, '|');
    ReadOwnPieces(startSeg, endSeg, options);
  }

  /** Reading the pieces of a generated schedule string gives back its start
      segment, end segment and options. */
  lemma ReadOwnPieces(startSeg: string, endSeg: string, options: seq<string>)
    requires |options| >= 1
    ensures ReadPieces(Pieces(startSeg, endSeg, options)) == Some(Segments(startSeg, endSeg, options))
  {
    var pieces := Pieces(startSeg, endSeg, options);
    assert pieces[0] == startSeg + " " && pieces[1] == " " + endSeg + " " && pieces[2] == " " + options[0];
    assert (startSeg + " ")[..|startSeg + " "| - 1] == startSeg;
    assert (" " + endSeg + " ")[1..|" " + endSeg + " "| - 1] == endSeg;
    assert (" " + options[0])[1..] == options[0];
    assert pieces[3..] == options[1..];
    assert [options[0]] + options[1..] == options;
  }

  /** When no input contains `|` and there is at least one option, parsing
      a generated schedule string gives back its start segment, its end
      segment and the options. */
  lemma ParseGenerated(startOption: Option<string>, customStartDate: Option<string>, start: Clock,
                       endDate: Option<string>, end: Clock, options: seq<string>)
    requires GenerateScheduleString(startOption, customStartDate, start, endDate, end, options).Success?
    requires |options| >= 1
    requires forall i | 0 <= i < |options| :: '|' !in options[i]
    requires customStartDate.Some? ==> '|' !in customStartDate.value
    requires endDate.Some? ==> '|' !in endDate.value
    requires '|' !in TimeOfDay(start) && '|' !in TimeOfDay(end)
    ensures var s := GenerateScheduleString(startOption, customStartDate, start, endDate, end, options).value;
      ParseSchedule(s) == Some(Segments(
        if startOption == Some("now") then "now" else DateTime(customStartDate.value, start),
        EndSegment(endDate, end),
        options))
  {
    var startSeg := if startOption == Some("now") then "now" else DateTime(customStartDate.value, start);
    var endSeg := EndSegment(endDate, end);
    ScheduleAsPieces(startSeg, endSeg, options);
    ParsePieces(startSeg, endSeg, options);
  }

  /** No options and one empty option give the same string, which the
      parser reads as one empty option. */
  lemma NoOptionsLikeOneEmpty(endDate: Option<string>, end: Clock)
    ensures GenerateScheduleString(Some("now"), None, Clock(None, None, None), endDate, end, [])
         == GenerateScheduleString(Some("now"), None, Clock(None, None, None), endDate, end, [""])
  {
  }

  /** The schedule of a measurement that starts now, with no end and
      streaming. */
  lemma StreamNow()
    ensures GenerateScheduleString(Some("now"), None, Clock(None, None, None), None, Clock(None, None, None), ["stream"])
         == Success("now |  | stream")
  {
    assert "now" + " | " + "" + " | " + "stream" == "now |  | stream";
  }
}

=== FILE: seqs.dfy ===
/** Facts about sequence concatenation, stated once so that proofs can name
    the step they take instead of leaving the solver to rediscover it. */
module Seqs {

  lemma Associative<T>(a: seq<T>, b: seq<T>, c: seq<T>)
    ensures (a + b) + c == a + (b + c)
  {
  }

  lemma EmptyLeft<T>(a: seq<T>)
    ensures [] + a == a
  {
  }

  lemma PairOfSingletons<T>(x: T, y: T)
    ensures [x] + [y] == [x, y]
  {
  }
}

=== FILE: text.dfy ===
/** The Python `str` methods the client relies on, over `seq<char>`. */
module Text {
  import opened Wrappers
  import opened Seqs

  /** `p in s` for two Python strings: `p` occurs in `s` as a contiguous block. */
  predicate IsSubstring(p: string, s: string)
    decreases |s|
  {
    p <= s || (|s| > 0 && IsSubstring(p, s[1..]))
  }

  /** Position of the first `c` in `s`, or None when `c` does not occur. */
  function FirstIndex(s: string, c: char): (r: Option<nat>)
    ensures r.Some? ==> r.value < |s| && s[r.value] == c && c !in s[..r.value]
    ensures r.None? <==> c !in s
  {
    if |s| == 0 then None
    else if s[0] == c then Some(0)
    else
      match FirstIndex(s[1..], c)
      case None =>
        assert s == [s[0]] + s[1..];
        None
      case Some(i) =>
        assert s[..i + 1] == [s[0]] + s[1..][..i];
        Some(i + 1)
  }

  /** Position of the last `c` in `s`, or None when `c` does not occur. */
  function LastIndex(s: string, c: char): (r: Option<nat>)
    ensures r.Some? ==> r.value < |s| && s[r.value] == c && c !in s[r.value + 1..]
    ensures r.None? <==> c !in s
  {
    if |s| == 0 then None
    else if s[|s| - 1] == c then Some(|s| - 1)
    else
      var init := s[..|s| - 1];
      assert s == init + [s[|s| - 1]];
      match LastIndex(init, c)
      case None => None
      case Some(i) =>
        assert s[i + 1..] == init[i + 1..] + [s[|s| - 1]];
        Some(i)
  }

  /** `sep.join(xs)`. */
  function Join(sep: string, xs: seq<string>): string {
    if |xs| == 0 then ""
    else if |xs| == 1 then xs[0]
    else xs[0] + sep + Join(sep, xs[1..])
  }

  /** Joining onto a non-empty tail puts one separator after the head. */
  lemma JoinCons(sep: string, x: string, xs: seq<string>)
    requires |xs| >= 1
    ensures Join(sep, [x] + xs) == x + sep + Join(sep, xs)
  {
    assert ([x] + xs)[1..] == xs;
  }

  /** `"".join(xs)`. */
  function Concat(xs: seq<string>): string {
    if |xs| == 0 then "" else xs[0] + Concat(xs[1..])
  }

  /** `s.split(c)` for a one-character separator: the maximal `c`-free pieces
      between the occurrences of `c` (see JoinOfSplit). */
  function Split(s: string, c: char): (parts: seq<string>)
    ensures |parts| >= 1
    ensures forall i | 0 <= i < |parts| :: c !in parts[i]
    ensures c !in s <==> parts == [s]
    decreases |s|
  {
    match FirstIndex(s, c)
    case None => [s]
    case Some(i) =>
      var rest := Split(s[i + 1..], c);
      assert s == s[..i] + [c] + s[i + 1..];
      [s[..i]] + rest
  }

  /** A string is what precedes position `i`, the character there, and what follows. */
  lemma Around(s: string, i: nat)
    requires i < |s|
    ensures s == s[..i] + [s[i]] + s[i + 1..]
  {
  }

  /** Splitting at a found separator peels off the piece before it. */
  lemma SplitFound(s: string, c: char, i: nat)
    requires FirstIndex(s, c) == Some(i)
    ensures Split(s, c) == [s[..i]] + Split(s[i + 1..], c)
  {
  }

  /** A character absent from `s` is absent from every piece of its split. */
  lemma {:induction false} SplitKeepsOut(s: string, c: char, x: char)
    requires x !in s
    ensures forall i | 0 <= i < |Split(s, c)| :: x !in Split(s, c)[i]
    decreases |s|
  {
    match FirstIndex(s, c)
    case None =>
    case Some(i) =>
      SplitFound(s, c, i);
      assert forall y | y in s[..i] :: y in s;
      assert forall y | y in s[i + 1..] :: y in s;
      SplitKeepsOut(s[i + 1..], c, x);
  }

  /** Joining the pieces of `s.split(c)` with `c` gives `s` back. */
  lemma {:induction false} JoinOfSplit(s: string, c: char)
    ensures Join([c], Split(s, c)) == s
    decreases |s|
  {
    match FirstIndex(s, c)
    case None =>
    case Some(i) =>
      var head, tail := s[..i], s[i + 1..];
      var rest := Split(tail, c);
      SplitFound(s, c, i);
      JoinOfSplit(tail, c);
      JoinCons([c], head, rest);
      Around(s, i);
  }

  /** The first `c` in `a + [c] + b` is the one after `a`, when `a` has none. */
  lemma {:induction false} FirstIndexAfterPrefix(a: string, b: string, c: char)
    requires c !in a
    ensures FirstIndex(a + [c] + b, c) == Some(|a|)
    decreases |a|
  {
    if |a| > 0 {
      assert (a + [c] + b)[0] == a[0];
      assert (a + [c] + b)[1..] == a[1..] + [c] + b;
      FirstIndexAfterPrefix(a[1..], b, c);
    }
  }

  /** The last `c` in `a + [c] + b` is the one after `a`, when `b` has none. */
  lemma {:induction false} LastIndexBeforeSuffix(a: string, b: string, c: char)
    requires c !in b
    ensures LastIndex(a + [c] + b, c) == Some(|a|)
    decreases |b|
  {
    var s := a + [c] + b;
    if |b| > 0 {
      var init := b[..|b| - 1];
      assert s[|s| - 1] == b[|b| - 1];
      assert s[..|s| - 1] == a + [c] + init;
      LastIndexBeforeSuffix(a, init, c);
    }
  }

  /** Splitting at the first separator peels off the piece before it. */
  lemma SplitAtFirst(a: string, b: string, c: char)
    requires c !in a
    ensures Split(a + [c] + b, c) == [a] + Split(b, c)
  {
    var s := a + [c] + b;
    FirstIndexAfterPrefix(a, b, c);
    assert s[..|a|] == a;
    assert s[|a| + 1..] == b;
  }

  /** Splitting three separator-free pieces joined by the separator. */
  lemma SplitThree(a: string, b: string, d: string, ch: char)
    requires ch !in a && ch !in b && ch !in d
    ensures Split(a + [ch] + b + [ch] + d, ch) == [a, b, d]
  {
    var first, second := a + [ch], b + [ch];
    Associative(first, b, [ch]);
    Associative(first, second, d);
    assert Split(d, ch) == [d];
    SplitAtFirst(b, d, ch);
    PairOfSingletons(b, d);
    SplitAtFirst(a, second + d, ch);
    assert [a] + [b, d] == [a, b, d];
  }

  /** Splitting undoes joining, provided no piece contains the separator. */
  lemma {:induction false} SplitOfJoin(xs: seq<string>, c: char)
    requires |xs| >= 1
    requires forall i | 0 <= i < |xs| :: c !in xs[i]
    ensures Split(Join([c], xs), c) == xs
  {
    if |xs| == 1 {
      assert Join([c], xs) == xs[0];
    } else {
      var tail := Join([c], xs[1..]);
      assert Join([c], xs) == xs[0] + [c] + tail;
      SplitAtFirst(xs[0], tail, c);
      SplitOfJoin(xs[1..], c);
      assert xs == [xs[0]] + xs[1..];
    }
  }

  predicate IsDigit(ch: char) {
    '0' <= ch <= '9'
  }

  /** Python's `s.isdigit()`, restricted to the ASCII digits. */
  predicate IsDigits(s: string) {
    |s| > 0 && forall i | 0 <= i < |s| :: IsDigit(s[i])
  }

  /** Python's `int(s)` on a digit string. */
  function DigitsValue(s: string): nat
    requires forall i | 0 <= i < |s| :: IsDigit(s[i])
    decreases |s|
  {
    if |s| == 0 then 0
    else
      var last := s[|s| - 1];
      assert IsDigit(last);
      DigitsValue(s[..|s| - 1]) * 10 + (last as int - '0' as int)
  }

  function DigitChar(d: nat): char
    requires d < 10
  {
    ('0' as int + d) as char
  }

  /** Python's `str(n)` for a non-negative int. */
  function NatToString(n: nat): string
    decreases n
  {
    if n < 10 then [DigitChar(n)] else NatToString(n / 10) + [DigitChar(n % 10)]
  }

  /** Rendering a number and reading it back with `isdigit` / `int` gives the number. */
  lemma {:induction false} NatToStringRoundTrip(n: nat)
    ensures IsDigits(NatToString(n))
    ensures DigitsValue(NatToString(n)) == n
  {
    if n >= 10 {
      NatToStringRoundTrip(n / 10);
      var s := NatToString(n);
      assert s[..|s| - 1] == NatToString(n / 10);
    }
  }

  /** `s.replace(c, "")` for a one-character `c`. */
  function RemoveChar(s: string, c: char): (r: string)
    ensures c !in r
    ensures forall x | x != c :: x in r <==> x in s
    ensures c !in s ==> r == s
    decreases |s|
  {
    if |s| == 0 then ""
    else
      assert s == [s[0]] + s[1..];
      (if s[0] == c then "" else [s[0]]) + RemoveChar(s[1..], c)
  }

  /** Removing a character distributes over concatenation. */
  lemma {:induction false} RemoveCharConcat(a: string, b: string, c: char)
    ensures RemoveChar(a + b, c) == RemoveChar(a, c) + RemoveChar(b, c)
    decreases |a|
  {
    if |a| > 0 {
      var head: string := if a[0] == c then "" else [a[0]];
      assert (a + b)[0] == a[0];
      assert (a + b)[1..] == a[1..] + b;
      assert RemoveChar(a + b, c) == head + RemoveChar(a[1..] + b, c);
      assert RemoveChar(a, c) == head + RemoveChar(a[1..], c);
      RemoveCharConcat(a[1..], b, c);
      assert head + (RemoveChar(a[1..], c) + RemoveChar(b, c))
          == (head + RemoveChar(a[1..], c)) + RemoveChar(b, c);
    } else {
      assert a + b == b;
    }
  }
}

=== FILE: values.dfy ===
/** The JSON-like values the client passes around (decoded message bodies,
    capability descriptors, specifications, parameters), together with the
    Python semantics it applies to them: ordered dictionaries, `==`, `in`,
    truthiness and `type()`. */
module Values {
  import opened Wrappers
  import Text

  /** A dictionary key. Decoded JSON only has string keys; the client also
      stores integer keys when it re-numbers capabilities. */
  datatype Key = KStr(s: string) | KInt(n: int)

  /** A Python value of the kinds that occur in message bodies. `NdArray` is a
      one-dimensional integer numpy array. */
  datatype Value =
    | Null
    | Bool(b: bool)
    | Int(i: int)
    | Str(s: string)
    | List(items: seq<Value>)
    | Dict(entries: seq<Entry>)
    | NdArray(elems: seq<int>)

  /** One key/value pair of a dictionary; a dictionary is a sequence of them
      in insertion order. */
  datatype Entry = Entry(key: Key, val: Value)

  // ---------------------------------------------------------------------
  // Ordered dictionaries

  function Keys(es: seq<Entry>): seq<Key> {
    seq(|es|, i requires 0 <= i < |es| => es[i].key)
  }

  function KeySet(es: seq<Entry>): set<Key> {
    set e | e in es :: e.key
  }

  /** The invariant of a Python dict: no key occurs twice. */
  predicate Distinct(es: seq<Entry>) {
    forall i, j | 0 <= i < j < |es| :: es[i].key != es[j].key
  }

  /** Position of the entry for `k`, or None when `k` is not a key. */
  function IndexOf(es: seq<Entry>, k: Key): (r: Option<nat>)
    ensures r.Some? ==> r.value < |es| && es[r.value].key == k
    ensures r.Some? ==> forall j | 0 <= j < r.value :: es[j].key != k
    ensures r.None? <==> k !in KeySet(es)
  {
    if |es| == 0 then None
    else if es[0].key == k then Some(0)
    else
      match IndexOf(es[1..], k)
      case None =>
        assert es == [es[0]] + es[1..];
        None
      case Some(i) => Some(i + 1)
  }

  predicate HasKey(es: seq<Entry>, k: Key) {
    IndexOf(es, k).Some?
  }

  /** `d.get(k)`: the value stored under `k`, or None. */
  function Get(es: seq<Entry>, k: Key): (r: Option<Value>)
    ensures r.Some? <==> k in KeySet(es)
  {
    match IndexOf(es, k)
    case Some(i) => Some(es[i].val)
    case None => None
  }

  /** `d.get(k, default)`. */
  function GetOr(es: seq<Entry>, k: Key, default: Value): Value {
    match Get(es, k)
    case Some(v) => v
    case None => default
  }

  /** The first entry for `k` is the one at position `j` when no earlier entry has key `k`. */
  lemma IndexOfAt(es: seq<Entry>, k: Key, j: nat)
    requires j < |es| && es[j].key == k
    requires forall i | 0 <= i < j :: es[i].key != k
    ensures IndexOf(es, k) == Some(j)
  {
    assert es[j] in es;
  }

  /** In a dict, the value stored under an entry's key is that entry's value. */
  lemma GetEntry(es: seq<Entry>, i: nat)
    requires Distinct(es) && i < |es|
    ensures Get(es, es[i].key) == Some(es[i].val)
  {
    IndexOfAt(es, es[i].key, i);
  }

  /** In a dict, looking up a key finds exactly the entries it holds. */
  lemma GetIffEntry(es: seq<Entry>, k: Key, v: Value)
    requires Distinct(es)
    ensures Get(es, k) == Some(v) <==> Entry(k, v) in es
  {
    if Entry(k, v) in es {
      var i :| 0 <= i < |es| && es[i] == Entry(k, v);
      GetEntry(es, i);
    }
  }

  /** Lookup depends on the keys only through their order. */
  lemma IndexOfSameKeys(a: seq<Entry>, b: seq<Entry>, k: Key)
    requires |a| == |b|
    requires forall i | 0 <= i < |a| :: a[i].key == b[i].key
    ensures IndexOf(a, k) == IndexOf(b, k)
  {
    if |a| > 0 && a[0].key != k {
      IndexOfSameKeys(a[1..], b[1..], k);
    }
  }

  /** Python's `d[k] = v`: an existing key keeps its position and gets the new
      value, a new key is added last; no other key is affected. */
  function Put(es: seq<Entry>, k: Key, v: Value): (r: seq<Entry>)
    ensures Get(r, k) == Some(v)
    ensures forall k' | k' != k :: Get(r, k') == Get(es, k')
    ensures KeySet(r) == KeySet(es) + {k}
    ensures k in KeySet(es) ==> Keys(r) == Keys(es)
    ensures k !in KeySet(es) ==> r == es + [Entry(k, v)]
    ensures Distinct(es) ==> Distinct(r)
  {
    match IndexOf(es, k)
    case Some(i) =>
      PutReplacing(es, k, v, i);
      es[i := Entry(k, v)]
    case None =>
      PutAppending(es, k, v);
      es + [Entry(k, v)]
  }

  lemma PutReplacing(es: seq<Entry>, k: Key, v: Value, i: nat)
    requires IndexOf(es, k) == Some(i)
    ensures var r := es[i := Entry(k, v)];
      && Get(r, k) == Some(v)
      && (forall k' | k' != k :: Get(r, k') == Get(es, k'))
      && KeySet(r) == KeySet(es)
      && Keys(r) == Keys(es)
      && (Distinct(es) ==> Distinct(r))
  {
    var r := es[i := Entry(k, v)];
    IndexOfSameKeys(r, es, k);
    forall k' | k' != k ensures Get(r, k') == Get(es, k') {
      IndexOfSameKeys(r, es, k');
    }
    forall e | e in r ensures e.key in KeySet(es) {
      var j :| 0 <= j < |r| && r[j] == e;
      assert es[j] in es;
    }
    forall e | e in es ensures e.key in KeySet(r) {
      var j :| 0 <= j < |es| && es[j] == e;
      assert r[j] in r;
    }
  }

  lemma PutAppending(es: seq<Entry>, k: Key, v: Value)
    requires IndexOf(es, k).None?
    ensures var r := es + [Entry(k, v)];
      && Get(r, k) == Some(v)
      && (forall k' | k' != k :: Get(r, k') == Get(es, k'))
      && KeySet(r) == KeySet(es) + {k}
      && (Distinct(es) ==> Distinct(r))
  {
    var r := es + [Entry(k, v)];
    IndexOfAt(r, k, |es|);
    forall k' | k' != k ensures Get(r, k') == Get(es, k') {
      match IndexOf(es, k')
      case Some(j) => IndexOfAt(r, k', j);
      case None => assert k' !in KeySet(r);
    }
    if Distinct(es) {
      forall j | 0 <= j < |es| ensures es[j].key != k {
        assert es[j] in es;
      }
    }
  }

  /** Python's `del d[k]` (or `d.pop(k)`) of a present key: that entry goes and
      the others keep their order; an absent key leaves the dict alone. */
  function Delete(es: seq<Entry>, k: Key): (r: seq<Entry>)
    ensures k !in KeySet(es) ==> r == es
    ensures IndexOf(es, k).Some? ==> |r| == |es| - 1
    ensures IndexOf(es, k) == Some(0) ==> r == es[1..]
    ensures Distinct(es) ==> Distinct(r) && KeySet(r) == KeySet(es) - {k}
    ensures Distinct(es) ==> forall e :: e in r <==> e in es && e.key != k
  {
    match IndexOf(es, k)
    case None => es
    case Some(i) =>
      var r := es[..i] + es[i + 1..];
      assert forall j | 0 <= j < |r| :: r[j] == es[if j < i then j else j + 1];
      r
  }

  /** Deleting one key leaves every other lookup as it was. */
  lemma DeleteKeepsOthers(es: seq<Entry>, k: Key)
    requires Distinct(es)
    ensures Get(Delete(es, k), k) == None
    ensures forall k' | k' != k :: Get(Delete(es, k), k') == Get(es, k')
  {
    var r := Delete(es, k);
    forall k' | k' != k
      ensures Get(r, k') == Get(es, k')
    {
      if Get(es, k').Some? {
        GetIffEntry(es, k', Get(es, k').value);
        GetIffEntry(r, k', Get(es, k').value);
      }
    }
  }

  // ---------------------------------------------------------------------
  // Python semantics over values

  /** Every dictionary inside the value, at any depth, has distinct keys. */
  predicate Wf(v: Value)
    decreases v
  {
    match v
    case List(xs) => forall i | 0 <= i < |xs| :: Wf(xs[i])
    case Dict(es) => Distinct(es) && forall i | 0 <= i < |es| :: Wf(es[i].val)
    case _ => true
  }

  /** The result of Python's `type(v)`. */
  datatype PyType = NoneType | BoolType | IntType | StrType | ListType | DictType | NdArrayType

  function TypeOf(v: Value): PyType {
    match v
    case Null => NoneType
    case Bool(_) => BoolType
    case Int(_) => IntType
    case Str(_) => StrType
    case List(_) => ListType
    case Dict(_) => DictType
    case NdArray(_) => NdArrayType
  }

  /** The integer a bool or int stands for in arithmetic and comparisons. */
  function AsInt(v: Value): int {
    match v
    case Bool(b) => if b then 1 else 0
    case Int(i) => i
    case _ => 0
  }

  predicate IsNumber(v: Value) {
    v.Bool? || v.Int?
  }

  /** Python's `a == b`. Bools compare equal to the ints they stand for,
      lists element-wise, dicts by key set and per-key values regardless of
      insertion order. */
  predicate PyEq(a: Value, b: Value)
    decreases a
  {
    match a
    case Null => b.Null?
    case Bool(_) => IsNumber(b) && AsInt(a) == AsInt(b)
    case Int(_) => IsNumber(b) && AsInt(a) == AsInt(b)
    case Str(s) => b == Str(s)
    case List(xs) =>
      b.List? && |xs| == |b.items| && forall i | 0 <= i < |xs| :: PyEq(xs[i], b.items[i])
    case Dict(es) =>
      b.Dict? && KeySet(es) == KeySet(b.entries)
      && forall i | 0 <= i < |es| :: PyEq(es[i].val, GetOr(b.entries, es[i].key, Null))
    case NdArray(xs) => b == NdArray(xs)
  }

  /** Python's `==` is reflexive on well-formed values. */
  lemma {:induction false} PyEqReflexive(a: Value)
    requires Wf(a)
    ensures PyEq(a, a)
    decreases a
  {
    match a
    case List(xs) =>
      forall i | 0 <= i < |xs| ensures PyEq(xs[i], xs[i]) {
        PyEqReflexive(xs[i]);
      }
    case Dict(es) =>
      forall i | 0 <= i < |es| ensures PyEq(es[i].val, GetOr(es, es[i].key, Null)) {
        GetEntry(es, i);
        PyEqReflexive(es[i].val);
      }
    case _ =>
  }

  /** Python's `==` is symmetric on well-formed values. */
  lemma {:induction false} PyEqSymmetric(a: Value, b: Value)
    requires Wf(a) && Wf(b)
    ensures PyEq(a, b) ==> PyEq(b, a)
    decreases a
  {
    if PyEq(a, b) {
      match a
      case List(xs) =>
        forall i | 0 <= i < |xs| ensures PyEq(b.items[i], xs[i]) {
          PyEqSymmetric(xs[i], b.items[i]);
        }
      case Dict(es) =>
        var fs := b.entries;
        forall j | 0 <= j < |fs| ensures PyEq(fs[j].val, GetOr(es, fs[j].key, Null)) {
          assert fs[j] in fs;
          assert fs[j].key in KeySet(es);
          var e :| e in es && e.key == fs[j].key;
          var i :| 0 <= i < |es| && es[i] == e;
          GetEntry(es, i);
          GetEntry(fs, j);
          PyEqSymmetric(es[i].val, fs[j].val);
        }
      case _ =>
    }
  }

  /** Python's `bool(v)`. None where numpy refuses to give an array a truth
      value (any array that does not hold exactly one element). */
  function Truthy(v: Value): Option<bool> {
    match v
    case Null => Some(false)
    case Bool(b) => Some(b)
    case Int(i) => Some(i != 0)
    case Str(s) => Some(|s| > 0)
    case List(xs) => Some(|xs| > 0)
    case Dict(es) => Some(|es| > 0)
    case NdArray(xs) => if |xs| == 1 then Some(xs[0] != 0) else None
  }

  /** An element whose comparison with a string has no truth value: an
      array of other than one element, since `==` on an array is elementwise
      and `bool()` of the resulting array raises ValueError. */
  predicate Ambiguous(v: Value) {
    v.NdArray? && |v.elems| != 1
  }

  /** `needle in xs` for a list: the elements are compared with the needle
      in order until one equals it; an ambiguous comparison met before that
      raises (None). */
  function ListContains(needle: string, xs: seq<Value>): (r: Option<bool>)
    ensures r.Some? ==> r == Some(Str(needle) in xs)
    ensures r.None? <==> exists i | 0 <= i < |xs| :: Ambiguous(xs[i]) && Str(needle) !in xs[..i]
    decreases |xs|
  {
    if |xs| == 0 then Some(false)
    else if xs[0] == Str(needle) then
      assert forall i | 0 < i < |xs| :: xs[0] in xs[..i];
      Some(true)
    else if Ambiguous(xs[0]) then
      assert xs[..0] == [];
      None
    else
      var r := ListContains(needle, xs[1..]);
      assert forall i | 0 < i <= |xs| :: xs[..i] == [xs[0]] + xs[1..][..i - 1];
      assert r.None? ==> exists i | 0 <= i < |xs[1..]| :: Ambiguous(xs[1..][i]) && Str(needle) !in xs[1..][..i];
      assert xs == [xs[0]] + xs[1..];
      r
  }

  /** Python's `needle in container` for a string needle: a key test on a
      dict, an element test on a list, a substring test on a string; None
      where Python raises: TypeError when the container is not iterable,
      ValueError when a list reaches an ambiguous element first. */
  function PyIn(needle: string, container: Value): (r: Option<bool>)
    ensures container.Dict? ==> r == Some(KStr(needle) in KeySet(container.entries))
    ensures container.List? && r.Some? ==> r == Some(Str(needle) in container.items)
    ensures r.None? <==>
      || container.Null? || container.Bool? || container.Int?
      || (&& container.List?
          && exists i | 0 <= i < |container.items| ::
               Ambiguous(container.items[i]) && Str(needle) !in container.items[..i])
  {
    match container
    case Dict(es) => Some(HasKey(es, KStr(needle)))
    case List(xs) => ListContains(needle, xs)
    case Str(s) => Some(Text.IsSubstring(needle, s))
    case NdArray(_) => Some(false)
    case _ => None
  }

  /** Only `None` compares equal to `None`. */
  lemma PyEqNull(v: Value)
    ensures PyEq(v, Null) <==> v == Null
  {
  }

  /** A list element equals a string exactly when it is that string. */
  lemma PyEqStr(s: string, v: Value)
    ensures PyEq(Str(s), v) <==> v == Str(s)
    ensures PyEq(v, Str(s)) <==> v == Str(s)
  {
  }

  /** Looking a string key up in a value: `v[key]` on a dict holding it;
      None wherever Python raises (KeyError, or TypeError on a non-dict). */
  function Field(v: Value, key: string): (r: Option<Value>)
    ensures r.Some? <==> v.Dict? && KStr(key) in KeySet(v.entries)
    ensures r.Some? ==> r == Get(v.entries, KStr(key))
  {
    if v.Dict? then Get(v.entries, KStr(key)) else None
  }
}

=== FILE: wrappers.dfy ===
/** Optional values and success-or-error outcomes, used wherever the client
    either produces a value or raises / receives nothing. */
module Wrappers {

  /** A value that may be absent: a missing dictionary key, a failed decode,
      a reply that never arrived. */
  datatype Option<+T> = None | Some(value: T)

  /** The outcome of an operation that returns normally or raises. */
  datatype Result<+T, +E> = Success(value: T) | Failure(error: E)
}
